=== FILE: README.md ===
# social-media-scanner in Dafny

A model of the core of social-media-scanner's `index.js`: the crawler that visits the pages of one
site and collects links to social-media profiles. Four parts are modelled.

- **The fuzzy medium matcher** (`MediumRegex`). `createRegexPart` turns a prefix such as
  `facebook.com/` into source text, and `createMediumRegex` joins the parts into one expression.
  - The model builds that text exactly as the loops do.
  - It reads every alternative back into a pattern of `Any`/`Lit` tokens.
  - It proves that the text means what the algorithm intends: one alternative per character, with
    that position turned into a wildcard. Short labels such as `fb.com/` are the exception and match
    only literally.
- **The link classifier `checkURLs`** (`Classifier`), together with `getProtocol`, `getDomain` and
  `getExtension` (`Urls`). Every href found on a page becomes a medium, a link to another page of
  the same site, or nothing.
- **The medium list and the block list** (`MediumList`, `Blocklist`): `addMedium`, `removeMedium`,
  `blockURL` and the JavaScript truthiness of `isBlockedURL`.
- **The crawl bookkeeping of `start`** (`Crawl`), as pure transitions over the record of the
  variables its closures share:
  - the seeding;
  - the timer callback;
  - the content-probe and `pageStart` callbacks;
  - the merge of a finished page.

  A run is any sequence of these events.

`JsStrings` holds the JavaScript string helpers the rest shares: `trim`, `indexOf`, and white space
and line terminators as regular expressions see them.

Some behaviour of the code is preserved as written and stated by lemmas:
- **Backslash before a special character.** When a prefix holds a backslash directly before a
  special character, the variant loop reads the escaped backslash as an escape. It then emits an
  alternative too many (`MediumRegex.BackslashBeforeSpecialExtraVariant`).
- **Empty medium list.** It produces the source `/*)(.*)`, so `new RegExp` throws
  (`MediumRegex.MediumRegexSource`).
- **`isBlockedURL` without a path.** For a URL its path regex does not match, it returns an
  `indexOf` position. That number is truthy even when the URL is absent (`-1`), and falsy when the
  URL heads the list (`Blocklist.PathlessTruthiness`).
- **One URL in both lists.** The medium test also asks that the cleaned href is not collected
  yet. An href whose cleaned form already is a medium therefore goes on to the link branch, and
  a same-site URL is appended to the links too. `http://a.com/x` followed by `http://a.com/x/`
  leaves `http://a.com/x` in both lists (`Classifier.MediumAlsoLink`,
  `Classifier.SlashVariantInBothLists`).
- **Running off the end of the list stops without `done`.** When every link from `i` on is
  marked, the skipping loop reaches the end and returns before `doneScanning()` is asked. With
  no page in flight, nothing calls `done` later (`Crawl.RunOffEndStalls`,
  `Crawl.SelfLinkNeverDone`).
- **The interval never restarts.** The merge restarts it only when `t === undefined`, and `t` is
  never undefined after the first `setInterval` (`Crawl.TimerNeverRestarts`).
- **The replacement loop keeps the last match.** The loop for a locally blocked candidate has no
  `break`. It therefore keeps the *last* eligible link, and when there is none it admits the
  blocked link again (`Crawl.Choose`).

## Model

| member | source | states |
|---|---|---|
| JsStrings.Trim | index.js:477 | The trimmed href is a contiguous slice of the input; everything cut off on either side is JavaScript white space (line terminators included), and neither end of a non-empty result is white space. |
| JsStrings.IndexOf | index.js:207 | `indexOf` is -1 exactly when the element is absent, and otherwise the first position that holds it. |
| MediumRegex.Normalize | index.js:44 | The separator rewrite keeps the length, turns every `-`, `_` and white-space character into `.`, keeps every other character, and leaves no separator or line terminator. |
| MediumRegex.ShortLabelIff | index.js:55-57 | The short-label test (two dot-pieces, the first at most three long) holds exactly when the prefix has a single dot and it stands at position 0 to 3. |
| MediumRegex.ShortLabelByFirstDot | index.js:55 | The same test read through `indexOf('.')`: the first dot is at position 0 to 3 and no dot follows it. |
| MediumRegex.RegexPart | index.js:39-85 | Appending `|` after every variant and slicing off the last character gives exactly the prefix's alternatives joined by `|`; a short label gives its escaped text alone. |
| MediumRegex.MediumRegexSource | index.js:21-31 | For a non-empty list the source is `/*(`, then every alternative of every prefix joined by `|`, then `)(.*)`; for the empty list the group is never opened and the source is the unbalanced `/*)(.*)`. |
| MediumRegex.Compile | index.js:31 | `new RegExp` certainly throws for the empty list (`InvalidRegex`), and a non-empty list is never classified that way; a non-empty list whose text the literal-and-wildcard reading cannot read is `OutsideFragment` (see Left out). |
| MediumRegex.InterpretEscaped | index.js:47-52 | Escaping is faithful: read back, the escaped prefix is one literal token per character, with the prefix's own dots as wildcards (for prefixes without `+`, `{`, `}`). |
| MediumRegex.LoopEmitsOnePerChar | index.js:60-82 | Walking the escaped prefix, the loop emits exactly one variant per character of the normalised prefix (the escape pair counts once), provided no backslash precedes a special character. |
| MediumRegex.AsWrittenIsIntended | index.js:39-85 | The alternatives the code writes, read back as patterns, are exactly the intended ones: the literal prefix for a short label, otherwise one variant per character with only that position wild. |
| MediumRegex.OneAlternativePerChar | index.js:60-82 | Outside the short-label case there are as many alternatives as characters, and alternative k is the prefix with only position k turned into a wildcard. |
| MediumRegex.BackslashBeforeSpecialExtraVariant | index.js:65-72 | For the two-character prefix `\/` the loop emits three alternatives, and one of them demands a literal `.` where the prefix has a backslash. |
| MediumRegex.IsMediumAppend | index.js:483 | `regex.test` on the joined expression is the union of the tests of its parts: a link matches the alternatives of two lists together iff it matches those of one of them. |
| MediumRegex.CompileIsUnion | index.js:21-31 | The joined expression compiles iff every prefix does, and a link matches it iff it matches the alternatives of some single prefix. |
| MediumRegex.FuzzyMatchIff | index.js:483 | Outside the short-label case a prefix matches a link iff some window of the link spells the normalised prefix with at most one character replaced by a non-line-terminator. |
| MediumRegex.ShortLabelExact | index.js:54-57 | A short label matches a link iff the link contains the prefix exactly (its dots matching any character). |
| MediumRegex.ExactIsMedium | index.js:483 | A link containing the normalised prefix always matches: the variants only widen the match. |
| MediumRegex.VerbatimPrefixMatches | index.js:483 | A link that contains a plain prefix (lowercase letters, digits, `.`, `/`) word for word anywhere is a medium link. |
| MediumRegex.ShortLabelNeedsFirstChar | index.js:54-57 | A short label whose first character is not a dot and does not occur in the link never matches it: no character of a short label is wild. |
| MediumRegex.ShortLabelRejectsNearMiss | index.js:54-57 | A short label such as `fb.com/` does not match a link that spells it with the first character replaced (`xb.com/`), although that window is one substitution away; stated for links in which the label's first character occurs nowhere else. |
| Urls.ProtocolFrom | index.js:88 | The scheme search succeeds iff some position starts `http:` or `https:`, and returns the token at the leftmost such position. |
| Urls.GetProtocol | index.js:87-89 | `getProtocol` yields `http:` or `https:`, and throws exactly when neither occurs anywhere. |
| Urls.GetDomain | index.js:91-93 | `getDomain` is defined iff `http://` or `https://` occurs, and the domain holds no `/`. |
| Urls.UpToSlash | index.js:92 | `[^\/]*` takes the longest prefix without `/`, stopping at the first `/`. |
| Urls.UpToLineEnd | index.js:96 | `(.*)` takes the longest prefix without a line terminator, stopping at the first one. |
| Urls.GetExtension | index.js:95-97 | `getExtension` throws exactly when `getDomain` does; a defined extension is empty or starts with `.`, and holds no line terminator. |
| Urls.PageBaseOf | index.js:452-454 | Building a page succeeds iff `getProtocol` and `getDomain` succeed, and it records what they return. |
| Urls.ReadBack | index.js:87-93 | For `proto//host/path` with an http(s) scheme, `getProtocol` returns the scheme and `getDomain` the host with one leading `www.` dropped. |
| Urls.Resolve | index.js:497-501 | A resolved path starts with the page's `protocol//domain/` and ends with the path itself; exactly one `/` stands between domain and path, whether or not the path brought its own. |
| Urls.ResolveRoundTrip | index.js:497-501 | A resolved bare path lies on the page's own protocol and domain: building a page from it gives back the page's base. Stated for an http(s) page whose domain holds no `/` and does not itself start with `www.` (on `http://www.www.a.com` the rebuilt URL reads back as `a.com`). |
| Classifier.Clean | index.js:477-481 | The cleaned href is the trimmed href, or the trimmed href minus one trailing `/`, and does not start with white space; the slash is dropped exactly when the trimmed href ends with `/`. |
| Classifier.CleanDropsOneSlash | index.js:477-481 | Cleaning leaves a trimmed href without trailing `/` alone, and strips exactly one `/` from it with one appended, so `a` and `a/` name the same link. |
| Classifier.LinkTargetOnSite | index.js:486-503 | Any link target lies on the page's own domain, and a resolved bare path keeps the page's protocol; stated, like `Urls.ResolveRoundTrip`, for an http(s) page whose domain holds no `/` and does not start with `www.`. |
| Classifier.AddLink | index.js:511-517 | A URL ends up in the links iff it was there or its domain is the page's domain; at most that URL is appended, and no duplicate arises. |
| Classifier.LinkStep | index.js:486-517 | The non-medium branch leaves media alone; a thrown helper leaves everything unchanged; links stay as they were or gain exactly the href's link target when it is new; a normal finish leaves the target in the links; it throws exactly when a valid URL lacks an `http:`/`https:` scheme or an authority, or a bare path resolves to a URL without an authority (`getExtension` fails exactly when `getDomain` does). |
| Classifier.ClassifyHref | index.js:473-518 | One iteration only appends, at most one entry per list; an href added to media is not also considered as a link; a new matching href is always appended to media and never throws; an iteration throws exactly when the href is not a new medium and the URL helpers throw on it, and then changes nothing; any other href, including one whose cleaned form is already in media, leaves media alone and, on a normal finish, leaves its link target in the links. |
| Classifier.ScanThrowsOnlyOnHelpers | index.js:473-519 | The loop stops early only at an href on which the URL helpers throw, so a list of hrefs without such an href is always handled to the end. |
| Classifier.WebPageThrowsOnlyOnValid | index.js:486-503 | On an http(s) page a bare path never makes the helpers throw; only a valid URL without a scheme or an authority does. |
| Classifier.ClassifyHrefSound | index.js:476-517 | A new medium is the cleaned href, was not collected yet, and matches the expression; a new link is the href's link target and was new; a normal finish accounts for the href. |
| Classifier.Scan | index.js:473-519 | The loop only appends, and adds at most one entry per href. |
| Classifier.CheckURLs | index.js:466-471 | An empty medium list throws before any href is read; otherwise the collected lists only grow. |
| Classifier.ScanKeepsNoDup | index.js:483-516 | Neither `found.media` nor `found.links` ever holds an entry twice. |
| Classifier.ScanMediaSound | index.js:483-484 | Every medium the loop adds is a cleaned href that matches the expression. |
| Classifier.ScanLinksSound | index.js:486-517 | Every link the loop adds is the link target of one of the hrefs. |
| Classifier.ScanComplete | index.js:473-519 | When the loop finishes, every matching href is in media and every other href's link target, if any, is in links. |
| Classifier.CheckURLsSummary | index.js:466-520 | `checkURLs` keeps both lists free of duplicates, adds only cleaned hrefs that some prefix matches and link targets of hrefs, and, when it finishes, has collected every href some prefix matches; it finishes whenever no href makes the URL helpers throw. |
| Classifier.ResolvedHasExtension | index.js:501-503 | Resolving a bare path against an http(s) page never makes `getExtension` throw. |
| Classifier.BarePathBecomesLink | index.js:493-503 | A bare path that is neither valid nor a new medium becomes `protocol + "//" + domain + path`, with `/` put in front when missing, and is appended unless already present. |
| Classifier.MediumAlsoLink | index.js:483-517 | An href whose cleaned form is already a medium is not skipped: a valid URL on the page's domain that is not yet a link is appended to the links, so it then stands in both lists. |
| Classifier.MediumThenSlashVariant | index.js:473-519 | A matching href followed by an href that cleans to the same text (the same URL with a trailing `/`) leaves that URL in both media and links. |
| Classifier.SlashVariantInBothLists | index.js:473-519 | On a page of `a.com`, the hrefs `http://a.com/x` (matching a prefix) and `http://a.com/x/` collect `http://a.com/x` as a medium and as a link. |
| Classifier.SchemeOrFragmentNoLink | index.js:505-509 | An href that is not valid and has a `:` or starts with `#` adds no link. |
| Classifier.ValidLinkNeedsSameDomain | index.js:487-491 | A valid URL is added as a link only when `getDomain` (with `www.` dropped) equals the page's domain, and then it is added as it is. |
| Classifier.FragmentNeverLink | index.js:493 | When `isValidURL` accepts only `http`/`https`/`ftp` URLs, an href starting with `#` never becomes a link. |
| Classifier.NoSchemeLetterNoProtocol | index.js:88 | A text without the letter `h` makes `getProtocol` throw. |
| Classifier.NoSchemeLinkThrows | index.js:487-490 | A valid link without any `h` (an `ftp://` link) that is not a new medium ends the loop with an exception and changes nothing. |
| MediumList.AddMedium | index.js:183-189 | A string is appended at the end, an array is concatenated at the end, anything else changes nothing; the old list stays a prefix. |
| MediumList.RemoveMedium | index.js:194-213 | The copying loop yields the reference filter `JsStrings.Filter` (so survivors keep their order), and an entry survives iff it was in the list and is not named by the argument. |
| MediumList.KeepCounts | index.js:199-210 | Every entry not named keeps its number of occurrences. |
| MediumList.KeepNothing | index.js:194-213 | An argument that is neither a string nor an array leaves the list unchanged. |
| MediumList.RemoveIdempotent | index.js:194-213 | Removing the same thing twice removes nothing more. |
| MediumList.RemoveAfterAdd | index.js:183-213 | Removing what was just added gives the same list as removing it from the original. |
| Blocklist.LastSlash | index.js:224 | The greedy `.*` stops at the last `/` before the end of the line. |
| Blocklist.PathMatchFrom | index.js:224 | The search from a position succeeds iff the path expression matches at some later position, and reports the match at the leftmost such position. |
| Blocklist.PathOf | index.js:224 | `exec` succeeds iff the path expression matches somewhere in the URL, and reports the leftmost match. |
| Blocklist.PathShape | index.js:224 | A match is a `/` followed by its second group, which holds no `/` and no line terminator; on a one-line URL the first group is the URL's ending. |
| Blocklist.PathOfShape | index.js:224 | The same holds for the match `exec` reports. |
| Blocklist.BlockURL | index.js:219-221 | `blockURL` appends the URL after the existing entries. |
| Blocklist.IsBlockedURL | index.js:223-235 | Without a path match the answer is the `indexOf` position; with one it is a boolean. |
| Blocklist.BlockedIffListed | index.js:230-234 | A URL with a path counts as blocked iff the list holds the URL, `/` plus its last segment, or the last segment. |
| Blocklist.PathlessTruthiness | index.js:226-228 | A URL without a path counts as blocked unless it is the first entry of the list; an unlisted one is truthy. |
| Blocklist.BlockingBlocks | index.js:219-234 | After `blockURL(url)`, a URL with a path is blocked. |
| Blocklist.NoSlashNoPath | index.js:224 | A URL with no `/` at index 7 or later has no path match; the condition excludes every `https://` URL, whose second slash stands at index 7. |
| Blocklist.BlockingPathlessUnblocks | index.js:219-228 | Blocking `http://a.com` in an empty list makes it unblocked: its `indexOf` is 0, which is falsy. |
| JsStrings.Filter | index.js:293-297 | A filter keeps exactly the entries the predicate accepts and never makes the list longer. |
| JsStrings.FilterAppend | index.js:199-210 | Filtering a concatenation filters each half and concatenates the results, so the survivors keep their order. |
| JsStrings.FilterNoDup | index.js:293-297 | Filtering a duplicate-free list keeps it free of duplicates. |
| Crawl.AppendNew | index.js:409-419 | The merge loops keep the old list as a prefix and add exactly the accepted entries not yet present. |
| Crawl.AppendNewSnoc | index.js:409-419 | Pushing one more candidate appends it at the end exactly when it is accepted and not yet present, so the loops add new entries in the order they are found. |
| Crawl.AppendNewNoDup | index.js:409-419 | The merge loops do not create duplicates. |
| Crawl.Seed | index.js:277-308 | A failed main scan fires `error`; a main page without links fires `done` at once; otherwise the frontier is the main URL followed by its unblocked links in their order, the media are the main page's, the main page is the one page recorded, only the main URL is marked (finished), nothing is in flight and no interval runs yet. |
| Crawl.DoneScanning | index.js:310-317 | The loop over the marks answers true iff every marked link is finished. |
| Crawl.SeedInv | index.js:289-308 | The seeded crawl satisfies the crawl invariant. |
| Crawl.NextUnmarked | index.js:340-347 | The skipping loop stops at the first unmarked link from `i` on, or at the end. |
| Crawl.LastEligible | index.js:364-369 | The replacement loop, which has no `break`, ends on the last eligible link or finds none. |
| Crawl.Tick | index.js:320-372 | With ten pages in flight or `max` keys marked nothing is marked; a marked link comes from the frontier, was unmarked, and is the only new key, added below `max`; every other outcome clears the interval; `done` fires iff fewer than ten pages are in flight, every mark is finished, and either the budget is spent or the `!link` test is reached: `i` is at the end of the list or the skipping loop stopped on an empty link. When the skipping loop runs off the end, `done` does not fire. |
| Crawl.RunOffEndStalls | index.js:320-348 | When every link from `i` on is marked, a tick clears the interval, marks nothing and fires no `done`, even if every mark is finished; the stopped timer then changes nothing. |
| Crawl.SelfLinkNeverDone | index.js:289-348 | A main page whose only same-site link is itself: with every mark finished and nothing in flight, the first tick stops the interval without `done`, so the crawl never reports `done`. |
| Crawl.Choose | index.js:361-370 | An unblocked candidate is taken; a blocked one is replaced by the last eligible link, or taken again when there is none. |
| Crawl.TickMarksChoice | index.js:361-372 | A tick that reaches a usable candidate marks what `Choose` picks and continues after it. |
| Crawl.Refuse | index.js:374-378 | A refused link loses its mark, and only its mark, and is blocked for this run. |
| Crawl.Skip | index.js:381-393 | A skipped page loses its mark and only its mark, is blocked for this run, and still uses up one key; nothing else changes. |
| Crawl.Begin | index.js:381-396 | A started page takes the next key and counts as one more page in flight; nothing else changes. |
| Crawl.Merge | index.js:404-437 | A finished page crashes when its mark is gone; otherwise media and links only gain new entries (links only those the block test lets through), the page is recorded and marked finished, one fewer page is in flight, `done` fires iff every mark is finished, and nothing else changes. |
| Crawl.MergeNoDup | index.js:409-419 | A merge keeps the media and the frontier after the main URL free of duplicates. |
| Crawl.TickInv | index.js:320-372 | A tick preserves the crawl invariant, including at most `max` keys. |
| Crawl.RefuseInv | index.js:374-394 | Refusing or skipping preserves the crawl invariant. |
| Crawl.MergeInv | index.js:404-437 | A merge preserves the crawl invariant. |
| Crawl.StepInv | index.js:320-437 | Every event preserves the crawl invariant. |
| Crawl.Step | index.js:320-437 | Only a finished page whose mark is gone stops the run; a timer event after the interval is cleared changes nothing; no event changes `max` or starts the interval. |
| Crawl.Run | index.js:320-441 | After any run that does not crash the invariant holds, so the number of marked links never exceeds `max` (or 1 when `max` is below 1). |
| Crawl.TimerNeverRestarts | index.js:429-441 | Once the interval is cleared, no later event sets it again. |

## Left out

- Page loading with jsdom and jQuery, and the `ENOTFOUND` retry (index.js:531-598) are I/O. The retry also calls `scan` with the wrong arguments. A failed fetch or scan of the main page reaches `Crawl.Seed` as a thrown outcome.
- The `request.head` content probe (index.js:242-256) is network I/O. Its verdict arrives as the `ProbeRefuses` event, or as no event when it accepts.
- `setInterval`, `clearInterval` and the order in which callbacks arrive are not modelled. A run is any sequence of events, and the interval is a flag.
- `isValidURL` (index.js:12-14) is the parameter `valid`. Lemmas that need its shape assume only that accepted strings begin with `h`, `H`, `f` or `F` (`Classifier.SchemeFirst`).
- The `on` registration and the callback bodies (index.js:125-173, 258-264) are left out. The callbacks are observable only as the `fireDone` flags and the `Crashed` outcome.
- The contents of `./default_media` are not part of this model. The medium list is any sequence of strings.
- Classifier.CheckURLs: requires every prefix to be readable as literals and wildcards. A prefix with `+`, `{` or `}` stays regular-expression syntax in the source. Its meaning, and the meaning of a backslash escape like `\d` that the buggy variant loop may produce, are outside the matcher model.
- MediumRegex.AsWrittenIsIntended: requires `MediumRegex.PlainPrefix`. With a backslash before a special character the property is false, as `MediumRegex.BackslashBeforeSpecialExtraVariant` shows.
- Strings are sequences of Dafny characters. UTF-16 surrogate pairs are not modelled.
- Two aliasings are not modelled:
  - the medium list aliases the shared `defaultMedia` array (index.js:118, 185);
  - the crawl's `media` aliases the main page's `found.media` (index.js:304).

  The model treats both as values.
- Arguments that are `null`, or objects without `indexOf`, are not modelled.
- Object keys that collide with `Object.prototype` names (including the key `"undefined"` a missing link would use) are not modelled. `scannedLinks` is a map from URL to `done` flag.
- A `Page` constructor that throws inside the probe callback (index.js:381) is not modelled.
- Exceptions thrown by the `pageDone` and `pageStart` listeners are not modelled.
- Changes to `this.max` during a crawl are not modelled.
- Deduplication of hrefs while collecting them (index.js:561-575) is not modelled. `Classifier.Scan` takes any sequence.
- MediumRegex.Compile: does not say which non-empty lists make `new RegExp` throw. A prefix such as `+a` makes the source throw, because its alternative `+.` starts with a quantifier that has nothing to repeat. Such a list lands in `OutsideFragment` together with lists that compile but use syntax outside the literal-and-wildcard reading.
- Crawl.Merge: when the page's mark is missing the source has already appended media, links and the page before it throws. The model stops the run instead (`Crashed`).

=== FILE: blocklist.dfy ===
/** The scanner's block list: `blockURL` and the private `isBlockedURL` of index.js.

    `isBlockedURL` looks a URL up in the list under three keys: the URL itself, its last
    path segment with the leading `/`, and that segment without it. The segment comes from
    the regular expression `(?:http:\/\/|https:\/\/).*(\/(.*))`. When that expression does
    not match, the function returns the URL's `indexOf` position in the list, a number,
    and its callers test the result for truthiness. */
module Blocklist {
  import opened JsStrings
  import opened Urls

  /** The two kinds of value `isBlockedURL` returns. */
  datatype JsValue = Num(n: int) | Bool(b: bool)

  /** JavaScript truthiness: every number but `0` is true. */
  predicate Truthy(v: JsValue) {
    match v
    case Num(n) => n != 0
    case Bool(b) => b
  }

  /** The last `/` in `s[a..e]`. */
  function LastSlash(s: string, a: nat, e: nat): (r: Option<nat>)
    requires a <= e <= |s|
    ensures r.Some? ==> a <= r.value < e && s[r.value] == '/'
    ensures r.Some? ==> forall q :: r.value < q < e ==> s[q] != '/'
    ensures r.None? ==> forall q :: a <= q < e ==> s[q] != '/'
    decreases e - a
  {
    if e == a then None
    else if s[e - 1] == '/' then Some(e - 1)
    else LastSlash(s, a, e - 1)
  }

  /** The two capture groups: `regexResult[1]` and `regexResult[2]`. */
  datatype PathMatch = PathMatch(path: string, tail: string)

  /** After the scheme, the greedy `.*` runs to the last `/` before the end of the line and
      the group `(.*)` takes the rest of that line. */
  function SegmentFrom(s: string, a: nat): Option<PathMatch>
    requires a <= |s|
  {
    var e := a + |UpToLineEnd(s[a..])|;
    match LastSlash(s, a, e)
    case None => None
    case Some(p) => Some(PathMatch(s[p..e], s[p + 1..e]))
  }

  /** The match starting at `k`. */
  function PathMatchAt(s: string, k: nat): Option<PathMatch>
    requires k <= |s|
  {
    match AuthorityAt(s, k)
    case None => None
    case Some(a) => SegmentFrom(s, a)
  }

  /** The regular expression tried at `k`, then at each later position. */
  function PathMatchFrom(s: string, k: nat): (r: Option<PathMatch>)
    requires k <= |s|
    ensures r.None? <==> forall j :: k <= j <= |s| ==> PathMatchAt(s, j).None?
    ensures r.Some? ==> exists j :: k <= j <= |s| && PathMatchAt(s, j) == r &&
                                    forall i :: k <= i < j ==> PathMatchAt(s, i).None?
  {
    var tries := seq(|s| + 1, j requires 0 <= j <= |s| => PathMatchAt(s, j));
    assert forall j :: 0 <= j < |tries| ==> tries[j] == PathMatchAt(s, j);
    var r := FirstSome(tries, k);
    assert r.None? <==> forall j :: k <= j <= |s| ==> PathMatchAt(s, j).None? by {
      if !r.None? {
        var j :| k <= j < |tries| && tries[j] == r;
        assert PathMatchAt(s, j).Some?;
      }
    }
    r
  }

  /** `exec`: the match at the leftmost position where there is one. */
  function PathOf(url: string): (r: Option<PathMatch>)
    ensures r.None? <==> forall j :: 0 <= j <= |url| ==> PathMatchAt(url, j).None?
    ensures r.Some? ==> exists j :: 0 <= j <= |url| && PathMatchAt(url, j) == r &&
                                    forall i :: 0 <= i < j ==> PathMatchAt(url, i).None?
  {
    PathMatchFrom(url, 0)
  }

  /** The line after position `a` holds no line terminator. */
  lemma LineHasNoEnd(s: string, a: nat)
    requires a <= |s|
    ensures forall q :: a <= q < a + |UpToLineEnd(s[a..])| ==> !IsLineTerminator(s[q])
  {
    var line := UpToLineEnd(s[a..]);
    forall q | a <= q < a + |line|
      ensures !IsLineTerminator(s[q])
    {
      assert s[q] == s[a..][..|line|][q - a] == line[q - a];
    }
  }

  /** Text of one path segment on one line: no `/` and no line terminator. */
  predicate SegmentText(t: string) {
    forall q :: 0 <= q < |t| ==> t[q] != '/' && !IsLineTerminator(t[q])
  }

  /** A segment from a `/` to `e` with no further `/` and no line terminator. */
  lemma SegmentShape(s: string, p: nat, e: nat)
    requires p < e <= |s| && s[p] == '/'
    requires forall q :: p < q < e ==> s[q] != '/' && !IsLineTerminator(s[q])
    ensures s[p..e] == "/" + s[p + 1..e]
    ensures SegmentText(s[p + 1..e])
  {
    var t := s[p + 1..e];
    assert s[p..e] == [s[p]] + t;
    forall q | 0 <= q < |t|
      ensures t[q] != '/' && !IsLineTerminator(t[q])
    {
      assert t[q] == s[p + 1 + q];
    }
  }

  lemma SegmentFromShape(s: string, a: nat)
    requires a <= |s| && SegmentFrom(s, a).Some?
    ensures var m := SegmentFrom(s, a).value;
      m.path == "/" + m.tail && SegmentText(m.tail)
  {
    var e := a + |UpToLineEnd(s[a..])|;
    var p := LastSlash(s, a, e).value;
    LineHasNoEnd(s, a);
    SegmentShape(s, p, e);
  }

  lemma SegmentFromEnds(s: string, a: nat)
    requires a <= |s| && SegmentFrom(s, a).Some?
    requires forall q :: 0 <= q < |s| ==> !IsLineTerminator(s[q])
    ensures var m := SegmentFrom(s, a).value;
      |m.path| <= |s| && s[|s| - |m.path|..] == m.path
  {
    assert forall q :: 0 <= q < |s[a..]| ==> s[a..][q] == s[a + q];
    NoLineEndTakesAll(s[a..]);
  }

  /** What a match consists of: a `/` followed by the rest of a line without any `/`. */
  lemma PathShape(s: string, k: nat)
    requires k <= |s| && PathMatchAt(s, k).Some?
    ensures var m := PathMatchAt(s, k).value;
      && m.path == "/" + m.tail
      && SegmentText(m.tail)
      && ((forall q :: 0 <= q < |s| ==> !IsLineTerminator(s[q])) ==>
            |m.path| <= |s| && s[|s| - |m.path|..] == m.path)
  {
    var a := AuthorityAt(s, k).value;
    SegmentFromShape(s, a);
    if forall q :: 0 <= q < |s| ==> !IsLineTerminator(s[q]) {
      SegmentFromEnds(s, a);
    }
  }

  lemma PathOfShape(url: string)
    requires PathOf(url).Some?
    ensures var m := PathOf(url).value;
      && m.path == "/" + m.tail
      && SegmentText(m.tail)
      && ((forall q :: 0 <= q < |url| ==> !IsLineTerminator(url[q])) ==>
            |m.path| <= |url| && url[|url| - |m.path|..] == m.path)
  {
    var j :| 0 <= j <= |url| && PathMatchAt(url, j) == PathOf(url);
    PathShape(url, j);
  }

  /** `blockURL`: the URL is appended to the list. */
  function BlockURL(blocked: seq<string>, url: string): (r: seq<string>)
    ensures |r| == |blocked| + 1 && r[..|blocked|] == blocked && r[|blocked|] == url
  {
    blocked + [url]
  }

  /** `isBlockedURL` as written. */
  function IsBlockedURL(blocked: seq<string>, url: string): (v: JsValue)
    ensures PathOf(url).None? ==> v == Num(IndexOf(blocked, url))
    ensures PathOf(url).Some? ==> v.Bool?
  {
    match PathOf(url)
    case None => Num(IndexOf(blocked, url))
    case Some(m) =>
      Bool(!(IndexOf(blocked, url) == -1 && IndexOf(blocked, m.path) == -1 &&
             IndexOf(blocked, m.tail) == -1))
  }

  /** A URL with a path counts as blocked exactly when the list holds the URL, its last
      segment with the leading `/`, or that segment without it. */
  lemma BlockedIffListed(blocked: seq<string>, url: string)
    requires PathOf(url).Some?
    ensures var m := PathOf(url).value;
      Truthy(IsBlockedURL(blocked, url)) <==>
        url in blocked || m.path in blocked || m.tail in blocked
  {
  }

  /** Without a path the answer is a position, true unless the URL heads the list. */
  lemma PathlessTruthiness(blocked: seq<string>, url: string)
    requires PathOf(url).None?
    ensures Truthy(IsBlockedURL(blocked, url)) <==> !(|blocked| > 0 && blocked[0] == url)
  {
  }

  /** A URL with a path is blocked once `blockURL` has been called on it. */
  lemma BlockingBlocks(blocked: seq<string>, url: string)
    requires PathOf(url).Some?
    ensures Truthy(IsBlockedURL(BlockURL(blocked, url), url))
  {
    BlockedIffListed(BlockURL(blocked, url), url);
    assert BlockURL(blocked, url)[|blocked|] == url;
  }

  lemma NoSlashNoPath(url: string)
    requires forall q :: 7 <= q < |url| ==> url[q] != '/'
    ensures PathOf(url).None?
  {
    forall j | 0 <= j <= |url|
      ensures PathMatchAt(url, j).None?
    {
      var a := AuthorityAt(url, j);
      if a.Some? {
        var e := a.value + |UpToLineEnd(url[a.value..])|;
        assert LastSlash(url, a.value, e).None?;
      }
    }
  }

  /** `http://a.com` has no path: with an empty list it counts as blocked, and once it is
      blocked, as the first entry, it no longer does. */
  lemma BlockingPathlessUnblocks()
    ensures Truthy(IsBlockedURL([], "http://a.com"))
    ensures !Truthy(IsBlockedURL(BlockURL([], "http://a.com"), "http://a.com"))
  {
    NoSlashNoPath("http://a.com");
  }
}

=== FILE: classifier.dfy ===
/** `checkURLs` of index.js: every href collected from a page is either a link to a social
    medium, a link to another page of the same site, or ignored.

    `isValidURL` is a long Unicode regular expression; the model takes it as a parameter
    `valid`. The page's own protocol and domain arrive as a `PageBase`. A TypeError thrown by
    one of the URL helpers ends the loop, keeping what was collected so far. */
module Classifier {
  import opened JsStrings
  import opened MediumRegex
  import opened Urls

  /** `page.found`: the media links and same-site links collected so far. */
  datatype Found = Found(media: seq<string>, links: seq<string>)

  /** How a call ends: normally, or by an exception after part of the hrefs were handled. */
  datatype Outcome = Completed(found: Found) | Thrown(found: Found)

  /** The href after `trim()` and the removal of one trailing `/`. */
  function Clean(h: string): (t: string)
    ensures |t| > 0 ==> !IsJsSpace(t[0])
    ensures t == Trim(h) || t + "/" == Trim(h)
    // the one trailing `/` goes exactly when the trimmed href ends with it
    ensures (|Trim(h)| > 0 && Trim(h)[|Trim(h)| - 1] == '/') <==> t + "/" == Trim(h)
  {
    var w := Trim(h);
    if |w| > 0 && w[|w| - 1] == '/' then
      assert w[..|w| - 1] + "/" == w;
      w[..|w| - 1]
    else w
  }

  /** An href and the same href with one `/` added are the same link once cleaned. */
  lemma CleanDropsOneSlash(w: string)
    requires |w| > 0 && !IsJsSpace(w[0]) && !IsJsSpace(w[|w| - 1]) && w[|w| - 1] != '/'
    ensures Clean(w) == w && Clean(w + "/") == w
  {
    TrimUnchanged(w);
    assert (w + "/")[0] == w[0];
    TrimUnchanged(w + "/");
    assert (w + "/")[..|w|] == w;
  }

  /** A path with no scheme: the href has no `:` and does not start with `#`. */
  predicate IsBarePath(t: string) {
    !ContainsChar(t, ':') && !(|t| > 0 && t[0] == '#')
  }

  /** The same-site link a cleaned href stands for when it is not taken as a medium: the
      href itself when it is a valid URL whose domain is the page's, the href resolved
      against the page when it is a bare path, and nothing otherwise. */
  function LinkTarget(t: string, valid: string -> bool, base: PageBase): Option<string> {
    if valid(t) then
      (if GetDomain(t) == Some(base.domain) then Some(t) else None)
    else if IsBarePath(t) then Some(Resolve(base, t))
    else None
  }

  /** Every link target lies on the page's own site: a valid URL only when `getDomain` reads
      the page's domain from it, and a resolved bare path because it is rebuilt from the
      page's protocol and domain. */
  lemma LinkTargetOnSite(t: string, valid: string -> bool, base: PageBase)
    requires IsWebProtocol(base.protocol)
    requires '/' !in base.domain && !StartsWith(base.domain, "www.")
    ensures LinkTarget(t, valid, base).Some? ==>
      GetDomain(LinkTarget(t, valid, base).value) == Some(base.domain)
    ensures !valid(t) && IsBarePath(t) ==>
      GetProtocol(LinkTarget(t, valid, base).value) == Some(base.protocol)
  {
    if !valid(t) && IsBarePath(t) {
      ResolveRoundTrip(base, t);
    }
  }

  /** The URL helpers throw on the cleaned href `t` when it is not taken as a medium: for a
      valid URL when `getProtocol` or `getDomain` finds nothing, for a bare path when the
      resolved URL has no authority (which `ResolvedHasExtension` rules out on http(s)
      pages). */
  predicate HelpersThrow(t: string, valid: string -> bool, base: PageBase) {
    if valid(t) then GetProtocol(t).None? || GetDomain(t).None?
    else IsBarePath(t) && GetDomain(Resolve(base, t)).None?
  }

  /** Keeps `u` when its domain is the page's and it is not collected yet. */
  function AddLink(f: Found, u: string, domain: string, base: PageBase): (g: Found)
    ensures g.media == f.media
    ensures u in g.links
      <==> u in f.links || domain == base.domain
    ensures g.links == f.links || g.links == f.links + [u]
    ensures NoDup(f.links) ==> NoDup(g.links)
  {
    if base.domain == domain && u !in f.links then f.(links := f.links + [u]) else f
  }

  /** The `else` branch of one iteration: the href, already known not to be a new medium,
      is resolved and kept when it lies on the page's site. */
  function LinkStep(f: Found, t: string, valid: string -> bool, base: PageBase): (o: Outcome)
    ensures o.found.media == f.media
    ensures o.Thrown? ==> o.found == f
    ensures o.found.links == f.links ||
      (LinkTarget(t, valid, base).Some? && LinkTarget(t, valid, base).value !in f.links &&
       o.found.links == f.links + [LinkTarget(t, valid, base).value])
    ensures o.Completed? && LinkTarget(t, valid, base).Some? ==>
      LinkTarget(t, valid, base).value in o.found.links
    // `getExtension` fails exactly when `getDomain` does, so only the two tests count
    ensures o.Thrown? <==> HelpersThrow(t, valid, base)
  {
    if valid(t) then
      var p, d, e := GetProtocol(t), GetDomain(t), GetExtension(t);
      if p.None? || d.None? || e.None? then Thrown(f)
      else Completed(AddLink(f, t, d.value, base))
    else if IsBarePath(t) then
      var u := Resolve(base, t);
      if GetExtension(u).None? then Thrown(f)
      else Completed(AddLink(f, u, base.domain, base))
    else Completed(f)
  }

  /** One iteration of the loop over the hrefs, given the alternatives of the compiled
      medium expression. */
  function ClassifyHref(f: Found, h: string, alts: seq<Pattern>, valid: string -> bool,
                        base: PageBase): (o: Outcome)
    // what is collected only grows, by at most one entry, and never in both lists at once
    ensures f.media <= o.found.media && f.links <= o.found.links
    ensures |o.found.media| <= |f.media| + 1 && |o.found.links| <= |f.links| + 1
    ensures o.found.media != f.media ==> o.found.links == f.links
    ensures o.Thrown? ==> o.found == f
    // a new matching href is always collected; only the link branch can throw
    ensures h != "" && Clean(h) !in f.media && IsMedium(alts, Clean(h)) ==>
      o == Completed(f.(media := f.media + [Clean(h)]))
    ensures o.Thrown? <==>
      h != "" && !(Clean(h) !in f.media && IsMedium(alts, Clean(h))) &&
      HelpersThrow(Clean(h), valid, base)
    // any other href, including one whose cleaned form is already a medium, is handled as a
    // link: media stay as they are and a normal finish leaves its link target in the links
    ensures h != "" && (Clean(h) in f.media || !IsMedium(alts, Clean(h))) ==>
      o.found.media == f.media
    ensures h != "" && (Clean(h) in f.media || !IsMedium(alts, Clean(h))) && o.Completed? &&
            LinkTarget(Clean(h), valid, base).Some? ==>
      LinkTarget(Clean(h), valid, base).value in o.found.links
  {
    if h == "" then Completed(f)
    else
      var t := Clean(h);
      if t !in f.media && IsMedium(alts, t) then
        Completed(f.(media := f.media + [t]))
      else LinkStep(f, t, valid, base)
  }

  /** A new medium is the cleaned href, was not collected and matches the expression; a new
      link is the href's link target and was not collected; and an href that leaves the
      iteration normally is accounted for. */
  lemma ClassifyHrefSound(f: Found, h: string, alts: seq<Pattern>, valid: string -> bool,
                          base: PageBase)
    ensures var o := ClassifyHref(f, h, alts, valid, base);
      && (|o.found.media| > |f.media| ==>
            h != "" && o.found.media == f.media + [Clean(h)] && Clean(h) !in f.media &&
            IsMedium(alts, Clean(h)))
      && (|o.found.links| > |f.links| ==>
            h != "" && LinkTarget(Clean(h), valid, base) == Some(o.found.links[|f.links|]) &&
            o.found.links[|f.links|] !in f.links)
      && (o.Completed? ==> Accounted(o.found, h, alts, valid, base))
  {
  }

  /** What the collected lists say about one href: as a medium it is in `media`, and
      otherwise its link target, if it has one, is in `links`. */
  predicate Accounted(f: Found, h: string, alts: seq<Pattern>, valid: string -> bool,
                      base: PageBase) {
    h != "" ==>
      var t := Clean(h);
      && (IsMedium(alts, t) ==> t in f.media)
      && (!IsMedium(alts, t) && LinkTarget(t, valid, base).Some? ==>
            LinkTarget(t, valid, base).value in f.links)
  }

  /** The loop over the hrefs, in order, stopping at the first exception. */
  function Scan(f: Found, hrefs: seq<string>, alts: seq<Pattern>, valid: string -> bool,
                base: PageBase): (o: Outcome)
    ensures f.media <= o.found.media && f.links <= o.found.links
    ensures |o.found.media| + |o.found.links| <= |f.media| + |f.links| + |hrefs|
    decreases |hrefs|
  {
    if |hrefs| == 0 then Completed(f)
    else
      var o := ClassifyHref(f, hrefs[0], alts, valid, base);
      if o.Thrown? then o else Scan(o.found, hrefs[1..], alts, valid, base)
  }

  /** The loop stops early only at an href on which the URL helpers throw. */
  lemma {:induction false} ScanThrowsOnlyOnHelpers(f: Found, hrefs: seq<string>,
                                                   alts: seq<Pattern>, valid: string -> bool,
                                                   base: PageBase)
    ensures Scan(f, hrefs, alts, valid, base).Thrown? ==>
      exists k :: 0 <= k < |hrefs| && hrefs[k] != "" && HelpersThrow(Clean(hrefs[k]), valid, base)
    decreases |hrefs|
  {
    if |hrefs| > 0 {
      var o := ClassifyHref(f, hrefs[0], alts, valid, base);
      if o.Thrown? {
        assert hrefs[0] != "" && HelpersThrow(Clean(hrefs[0]), valid, base);
      } else {
        var tail := hrefs[1..];
        ScanThrowsOnlyOnHelpers(o.found, tail, alts, valid, base);
        if Scan(o.found, tail, alts, valid, base).Thrown? {
          var k :| 0 <= k < |tail| && tail[k] != "" && HelpersThrow(Clean(tail[k]), valid, base);
          assert hrefs[k + 1] == tail[k];
        }
      }
    }
  }

  /** On an http(s) page only a valid URL without a scheme or an authority makes the helpers
      throw. */
  lemma WebPageThrowsOnlyOnValid(t: string, valid: string -> bool, base: PageBase)
    requires IsWebProtocol(base.protocol)
    ensures HelpersThrow(t, valid, base) <==>
      valid(t) && (GetProtocol(t).None? || GetDomain(t).None?)
  {
    ResolvedHasExtension(base, t);
  }

  /** `checkURLs(urls, mediaList)`: the medium expression is built first; an empty list
      makes `new RegExp` throw before any href is looked at. */
  function CheckURLs(f: Found, hrefs: seq<string>, media: seq<string>, valid: string -> bool,
                     base: PageBase): (o: Outcome)
    requires !Compile(media).OutsideFragment?
    ensures |media| == 0 ==> o == Thrown(f)
    ensures f.media <= o.found.media && f.links <= o.found.links
  {
    match Compile(media)
    case InvalidRegex => Thrown(f)
    case Matcher(alts) => Scan(f, hrefs, alts, valid, base)
  }

  // ---------------------------------------------------------------------------
  // Properties of the whole loop.
  // ---------------------------------------------------------------------------

  lemma PrefixIn<T>(a: seq<T>, b: seq<T>, x: T)
    requires a <= b && x in a
    ensures x in b
  {
    var k :| 0 <= k < |a| && a[k] == x;
    assert b[k] == x;
  }

  /** Neither list ever holds the same entry twice. */
  lemma {:induction false} ScanKeepsNoDup(f: Found, hrefs: seq<string>, alts: seq<Pattern>,
                                          valid: string -> bool, base: PageBase)
    requires NoDup(f.media) && NoDup(f.links)
    ensures var o := Scan(f, hrefs, alts, valid, base);
      NoDup(o.found.media) && NoDup(o.found.links)
    decreases |hrefs|
  {
    if |hrefs| > 0 {
      var o := ClassifyHref(f, hrefs[0], alts, valid, base);
      assert NoDup(o.found.media) by {
        if |o.found.media| > |f.media| {
          NoDupAppend(f.media, Clean(hrefs[0]));
        }
      }
      assert NoDup(o.found.links) by {
        if |o.found.links| > |f.links| {
          assert o.found.links == f.links + [o.found.links[|f.links|]];
          NoDupAppend(f.links, o.found.links[|f.links|]);
        }
      }
      if o.Completed? {
        ScanKeepsNoDup(o.found, hrefs[1..], alts, valid, base);
      }
    }
  }

  /** `x` is one of the hrefs, cleaned, and matches the expression. */
  predicate MediumOf(x: string, hrefs: seq<string>, alts: seq<Pattern>) {
    exists h :: h in hrefs && h != "" && x == Clean(h) && IsMedium(alts, x)
  }

  /** `x` is the link target of one of the hrefs. */
  predicate LinkOf(x: string, hrefs: seq<string>, valid: string -> bool, base: PageBase) {
    exists h :: h in hrefs && h != "" && LinkTarget(Clean(h), valid, base) == Some(x)
  }

  /** Every medium the loop adds is a cleaned href that matches the expression. */
  predicate MediaFrom(f0: Found, f: Found, hrefs: seq<string>, alts: seq<Pattern>) {
    forall k :: |f0.media| <= k < |f.media| ==> MediumOf(f.media[k], hrefs, alts)
  }

  /** Every link the loop adds is the link target of one of the hrefs. */
  predicate LinksFrom(f0: Found, f: Found, hrefs: seq<string>, valid: string -> bool,
                      base: PageBase) {
    forall k :: |f0.links| <= k < |f.links| ==> LinkOf(f.links[k], hrefs, valid, base)
  }

  lemma MediaFromWiden(f0: Found, f: Found, small: seq<string>, big: seq<string>,
                       alts: seq<Pattern>)
    requires MediaFrom(f0, f, small, alts)
    requires forall x :: x in small ==> x in big
    ensures MediaFrom(f0, f, big, alts)
  {
    forall k | |f0.media| <= k < |f.media|
      ensures MediumOf(f.media[k], big, alts)
    {
      assert MediumOf(f.media[k], small, alts);
      var x :| x in small && x != "" && f.media[k] == Clean(x) && IsMedium(alts, f.media[k]);
      assert x in big;
    }
  }

  lemma MediaFromJoin(f0: Found, f1: Found, f2: Found, hrefs: seq<string>, alts: seq<Pattern>)
    requires MediaFrom(f0, f1, hrefs, alts) && MediaFrom(f1, f2, hrefs, alts)
    requires f1.media <= f2.media
    ensures MediaFrom(f0, f2, hrefs, alts)
  {
    forall k | |f0.media| <= k < |f2.media|
      ensures MediumOf(f2.media[k], hrefs, alts)
    {
      if k < |f1.media| {
        assert f2.media[k] == f1.media[k];
      }
    }
  }

  lemma {:induction false} ScanMediaSound(f: Found, hrefs: seq<string>, alts: seq<Pattern>,
                                          valid: string -> bool, base: PageBase)
    ensures MediaFrom(f, Scan(f, hrefs, alts, valid, base).found, hrefs, alts)
    decreases |hrefs|
  {
    if |hrefs| > 0 {
      var h := hrefs[0];
      var o := ClassifyHref(f, h, alts, valid, base);
      ClassifyHrefSound(f, h, alts, valid, base);
      if o.Completed? {
        var tail := hrefs[1..];
        assert MediaFrom(f, o.found, hrefs, alts) by {
          assert h in hrefs;
        }
        ScanMediaSound(o.found, tail, alts, valid, base);
        var r := Scan(o.found, tail, alts, valid, base);
        MediaFromWiden(o.found, r.found, tail, hrefs, alts);
        MediaFromJoin(f, o.found, r.found, hrefs, alts);
      }
    }
  }

  lemma LinksFromWiden(f0: Found, f: Found, small: seq<string>, big: seq<string>,
                       valid: string -> bool, base: PageBase)
    requires LinksFrom(f0, f, small, valid, base)
    requires forall x :: x in small ==> x in big
    ensures LinksFrom(f0, f, big, valid, base)
  {
    forall k | |f0.links| <= k < |f.links|
      ensures LinkOf(f.links[k], big, valid, base)
    {
      assert LinkOf(f.links[k], small, valid, base);
      var x :| x in small && x != "" && LinkTarget(Clean(x), valid, base) == Some(f.links[k]);
      assert x in big;
    }
  }

  lemma LinksFromJoin(f0: Found, f1: Found, f2: Found, hrefs: seq<string>,
                      valid: string -> bool, base: PageBase)
    requires LinksFrom(f0, f1, hrefs, valid, base) && LinksFrom(f1, f2, hrefs, valid, base)
    requires f1.links <= f2.links
    ensures LinksFrom(f0, f2, hrefs, valid, base)
  {
    forall k | |f0.links| <= k < |f2.links|
      ensures LinkOf(f2.links[k], hrefs, valid, base)
    {
      if k < |f1.links| {
        assert f2.links[k] == f1.links[k];
      }
    }
  }

  lemma {:induction false} ScanLinksSound(f: Found, hrefs: seq<string>, alts: seq<Pattern>,
                                          valid: string -> bool, base: PageBase)
    ensures LinksFrom(f, Scan(f, hrefs, alts, valid, base).found, hrefs, valid, base)
    decreases |hrefs|
  {
    if |hrefs| > 0 {
      var h := hrefs[0];
      var o := ClassifyHref(f, h, alts, valid, base);
      ClassifyHrefSound(f, h, alts, valid, base);
      if o.Completed? {
        var tail := hrefs[1..];
        assert LinksFrom(f, o.found, hrefs, valid, base) by {
          assert h in hrefs;
        }
        ScanLinksSound(o.found, tail, alts, valid, base);
        var r := Scan(o.found, tail, alts, valid, base);
        LinksFromWiden(o.found, r.found, tail, hrefs, valid, base);
        LinksFromJoin(f, o.found, r.found, hrefs, valid, base);
      }
    }
  }

  lemma AccountedGrows(f: Found, g: Found, h: string, alts: seq<Pattern>,
                       valid: string -> bool, base: PageBase)
    requires Accounted(f, h, alts, valid, base)
    requires f.media <= g.media && f.links <= g.links
    ensures Accounted(g, h, alts, valid, base)
  {
    if h != "" {
      var t := Clean(h);
      if IsMedium(alts, t) {
        PrefixIn(f.media, g.media, t);
      }
      var target := LinkTarget(t, valid, base);
      if !IsMedium(alts, t) && target.Some? {
        PrefixIn(f.links, g.links, target.value);
      }
    }
  }

  /** When the loop finishes normally, every href is accounted for. */
  lemma {:induction false} ScanComplete(f: Found, hrefs: seq<string>, alts: seq<Pattern>,
                                        valid: string -> bool, base: PageBase)
    ensures var o := Scan(f, hrefs, alts, valid, base);
      o.Completed? ==> forall h :: h in hrefs ==> Accounted(o.found, h, alts, valid, base)
    decreases |hrefs|
  {
    if |hrefs| > 0 {
      var o := ClassifyHref(f, hrefs[0], alts, valid, base);
      if o.Completed? {
        var tail := hrefs[1..];
        ClassifyHrefSound(f, hrefs[0], alts, valid, base);
        ScanComplete(o.found, tail, alts, valid, base);
        var r := Scan(o.found, tail, alts, valid, base);
        if r.Completed? {
          AccountedGrows(o.found, r.found, hrefs[0], alts, valid, base);
          assert forall h :: h in hrefs ==> h == hrefs[0] || h in tail;
        }
      }
    }
  }

  /** `checkURLs` as a whole: with a well-formed medium list it keeps both lists free of
      duplicates, adds only cleaned hrefs that one of the prefixes matches and the link
      targets of hrefs, and when it finishes every href that one of the prefixes matches is
      in `media`. */
  lemma CheckURLsSummary(f: Found, hrefs: seq<string>, media: seq<string>,
                         valid: string -> bool, base: PageBase)
    requires Compile(media).Matcher?
    requires NoDup(f.media) && NoDup(f.links)
    ensures var o := CheckURLs(f, hrefs, media, valid, base);
      && NoDup(o.found.media) && NoDup(o.found.links)
      && (forall k :: |f.media| <= k < |o.found.media| ==>
            MediumOf(o.found.media[k], hrefs, Compile(media).alternatives) &&
            SomePrefixMatches(media, o.found.media[k]))
      && LinksFrom(f, o.found, hrefs, valid, base)
      && (o.Completed? ==>
            forall h :: (h in hrefs && h != "" && SomePrefixMatches(media, Clean(h))) ==>
                          Clean(h) in o.found.media)
      && ((forall k :: 0 <= k < |hrefs| && hrefs[k] != "" ==>
             !HelpersThrow(Clean(hrefs[k]), valid, base)) ==> o.Completed?)
  {
    var alts := Compile(media).alternatives;
    var o := Scan(f, hrefs, alts, valid, base);
    assert |media| > 0;
    ScanKeepsNoDup(f, hrefs, alts, valid, base);
    ScanMediaSound(f, hrefs, alts, valid, base);
    ScanLinksSound(f, hrefs, alts, valid, base);
    ScanComplete(f, hrefs, alts, valid, base);
    ScanThrowsOnlyOnHelpers(f, hrefs, alts, valid, base);
    forall k | |f.media| <= k < |o.found.media|
      ensures MediumOf(o.found.media[k], hrefs, alts) && SomePrefixMatches(media, o.found.media[k])
    {
      assert MediumOf(o.found.media[k], hrefs, alts);
      CompileIsUnion(media, o.found.media[k]);
    }
    if o.Completed? {
      forall h | h in hrefs && h != "" && SomePrefixMatches(media, Clean(h))
        ensures Clean(h) in o.found.media
      {
        CompileIsUnion(media, Clean(h));
        assert Accounted(o.found, h, alts, valid, base);
      }
    }
  }

  // ---------------------------------------------------------------------------
  // Properties of single hrefs.
  // ---------------------------------------------------------------------------

  /** Resolving a bare path against an http or https page never throws: the rebuilt URL
      always has a scheme and an authority. */
  lemma ResolvedHasExtension(base: PageBase, t: string)
    requires IsWebProtocol(base.protocol)
    ensures GetExtension(Resolve(base, t)).Some?
  {
    var u := Resolve(base, t);
    assert u[0..] == u;
    if base.protocol == "http:" {
      assert u[..7] == "http://";
    } else {
      assert u[..8] == "https://";
    }
    assert AuthorityAt(u, 0).Some?;
  }

  /** A bare path that is neither valid nor a medium ends up as a link on the page's site,
      with a `/` put in front when it lacks one. */
  lemma BarePathBecomesLink(f: Found, h: string, alts: seq<Pattern>, valid: string -> bool,
                            base: PageBase)
    requires IsWebProtocol(base.protocol)
    requires h != "" && !valid(Clean(h)) && IsBarePath(Clean(h))
    requires Clean(h) in f.media || !IsMedium(alts, Clean(h))
    ensures var t := Clean(h);
      var u := base.protocol + "//" + base.domain + (if |t| > 0 && t[0] == '/' then t else "/" + t);
      ClassifyHref(f, h, alts, valid, base) ==
        Completed(if u in f.links then f else f.(links := f.links + [u]))
  {
    ResolvedHasExtension(base, Clean(h));
  }

  /** An href whose cleaned form is already a medium is not skipped: when it is a valid URL
      on the page's domain it is appended to the links as well, so the same URL stands in
      both lists. */
  lemma MediumAlsoLink(f: Found, h: string, alts: seq<Pattern>, valid: string -> bool,
                       base: PageBase)
    requires h != "" && Clean(h) in f.media && Clean(h) !in f.links
    requires valid(Clean(h)) && GetProtocol(Clean(h)).Some?
    requires GetDomain(Clean(h)) == Some(base.domain)
    ensures var o := ClassifyHref(f, h, alts, valid, base);
      && o == Completed(f.(links := f.links + [Clean(h)]))
      && Clean(h) in o.found.media && Clean(h) in o.found.links
  {
  }

  /** A matching href followed by another href that cleans to the same text (the same URL
      with a trailing `/`, say): the first becomes a medium, the second a link. */
  lemma MediumThenSlashVariant(u: string, v: string, alts: seq<Pattern>, valid: string -> bool,
                               base: PageBase)
    requires u != "" && v != "" && Clean(u) == u && Clean(v) == u
    requires IsMedium(alts, u) && valid(u)
    requires GetProtocol(u).Some? && GetDomain(u) == Some(base.domain)
    ensures Scan(Found([], []), [u, v], alts, valid, base) == Completed(Found([u], [u]))
  {
    NewMedium(Found([], []), u, alts, valid, base);
    assert [] + [u] == [u];
    MediumAlsoLink(Found([u], []), v, alts, valid, base);
    ScanTwo(Found([], []), u, v, alts, valid, base);
  }

  /** The hrefs `http://a.com/x` and `http://a.com/x/` on a page of `a.com`, when the first
      matches a prefix: `http://a.com/x` ends up in both lists. */
  lemma SlashVariantInBothLists(alts: seq<Pattern>, valid: string -> bool)
    requires IsMedium(alts, "http://a.com/x") && valid("http://a.com/x")
    ensures Scan(Found([], []), ["http://a.com/x", "http://a.com/x/"], alts, valid,
                 PageBase("http:", "a.com")) ==
      Completed(Found(["http://a.com/x"], ["http://a.com/x"]))
  {
    ExampleCleans();
    ExampleReadsBack();
    MediumThenSlashVariant("http://a.com/x", "http://a.com/x/", alts, valid,
                           PageBase("http:", "a.com"));
  }

  /** Both example hrefs clean to `http://a.com/x`. */
  lemma ExampleCleans()
    ensures Clean("http://a.com/x") == "http://a.com/x"
    ensures Clean("http://a.com/x/") == "http://a.com/x"
  {
    var u := "http://a.com/x";
    CleanDropsOneSlash(u);
    assert u + "/" == "http://a.com/x/";
  }

  /** The helpers read `http:` and `a.com` from `http://a.com/x`. */
  lemma ExampleReadsBack()
    ensures GetProtocol("http://a.com/x") == Some("http:")
    ensures GetDomain("http://a.com/x") == Some("a.com")
  {
    assert "http://a.com/x" == "http:" + "//" + "a.com" + "/x";
    ReadBack("http:", "a.com", "/x");
    assert !StartsWith("a.com", "www.") by {
      assert "a.com"[..4][0] == 'a' != "www."[0];
    }
  }

  /** A new matching href is appended to the media and nothing else changes. */
  lemma NewMedium(f: Found, h: string, alts: seq<Pattern>, valid: string -> bool,
                  base: PageBase)
    requires h != "" && Clean(h) !in f.media && IsMedium(alts, Clean(h))
    ensures ClassifyHref(f, h, alts, valid, base) == Completed(Found(f.media + [Clean(h)], f.links))
  {
  }

  /** The loop over two hrefs. */
  lemma ScanTwo(f: Found, a: string, b: string, alts: seq<Pattern>, valid: string -> bool,
                base: PageBase)
    ensures var o := ClassifyHref(f, a, alts, valid, base);
      Scan(f, [a, b], alts, valid, base) ==
        if o.Thrown? then o else ClassifyHref(o.found, b, alts, valid, base)
  {
    var o := ClassifyHref(f, a, alts, valid, base);
    assert [a, b][1..] == [b];
    if o.Completed? {
      var p := ClassifyHref(o.found, b, alts, valid, base);
      assert [b][1..] == [];
      assert Scan(o.found, [b], alts, valid, base) == (if p.Thrown? then p else Completed(p.found));
    }
  }

  /** An href that is neither valid nor a bare path, such as `mailto:` or `#top`, adds no
      link. */
  lemma SchemeOrFragmentNoLink(f: Found, h: string, alts: seq<Pattern>, valid: string -> bool,
                               base: PageBase)
    requires !valid(Clean(h)) && !IsBarePath(Clean(h))
    ensures ClassifyHref(f, h, alts, valid, base).found.links == f.links
  {
  }

  /** A valid URL is added only when its domain, `www.` dropped, is the page's domain. */
  lemma ValidLinkNeedsSameDomain(f: Found, h: string, alts: seq<Pattern>,
                                 valid: string -> bool, base: PageBase)
    requires valid(Clean(h))
    ensures var o := ClassifyHref(f, h, alts, valid, base);
      |o.found.links| > |f.links| ==>
        o.found.links[|f.links|] == Clean(h) && GetDomain(Clean(h)) == Some(base.domain)
  {
  }

  /** `isValidURL` accepts only strings that begin with `http://`, `https://` or `ftp://`,
      in any letter case. */
  ghost predicate SchemeFirst(valid: string -> bool) {
    forall t :: valid(t) ==> |t| > 0 && t[0] in "hHfF"
  }

  /** An href beginning with `#` never becomes a link. */
  lemma FragmentNeverLink(f: Found, h: string, alts: seq<Pattern>, valid: string -> bool,
                          base: PageBase)
    requires SchemeFirst(valid)
    requires |Clean(h)| > 0 && Clean(h)[0] == '#'
    ensures ClassifyHref(f, h, alts, valid, base).found.links == f.links
  {
    var t := Clean(h);
    assert t[0] == '#' && '#' !in "hHfF";
    assert !valid(t);
    assert !IsBarePath(t);
    assert LinkTarget(t, valid, base).None?;
  }

  /** Without an `h` there is no `http:` or `https:` for `getProtocol` to find. */
  lemma NoSchemeLetterNoProtocol(t: string)
    requires forall k :: 0 <= k < |t| ==> t[k] != 'h'
    ensures GetProtocol(t).None?
  {
    forall j | 0 <= j <= |t|
      ensures ProtocolAt(t, j).None?
    {
      if j + 5 <= |t| {
        assert t[j..][..5][0] == t[j];
      }
    }
  }

  /** A valid link without any `h`, such as `ftp://a.org`, that is not a medium makes
      `getProtocol` throw, which ends the loop. */
  lemma NoSchemeLinkThrows(f: Found, h: string, alts: seq<Pattern>, valid: string -> bool,
                           base: PageBase)
    requires h != "" && valid(Clean(h))
    requires Clean(h) in f.media || !IsMedium(alts, Clean(h))
    requires forall k :: 0 <= k < |Clean(h)| ==> Clean(h)[k] != 'h'
    ensures ClassifyHref(f, h, alts, valid, base) == Thrown(f)
  {
    NoSchemeLetterNoProtocol(Clean(h));
  }
}

=== FILE: crawl.dfy ===
/** The crawl that `start` runs once the main page is scanned, as pure transitions over the
    record of the variables its closures share.

    The timer callback (`intervalFunction`) becomes `Tick`. The callbacks of the content probe
    and of `pageStart` become `Refuse`, `Skip` and `Begin`. The scan callback of a followed
    page becomes `Merge`. Timers, the network and the order in which callbacks arrive are
    outside the model: a run is any sequence of these events. */
module Crawl {
  import opened JsStrings
  import opened Classifier
  import opened Blocklist

  /** What `getPageProperties` reports for a page. */
  datatype PageInfo = PageInfo(url: string, key: int, found: Found)

  /** The variables of `start` after the main page is scanned. `scanned` maps each key of
      `scannedLinks` to its `done` flag; `timer` says whether the interval is still set. */
  datatype Crawl = Crawl(
    links: seq<string>,
    i: nat,
    scanned: map<string, bool>,
    localBlocked: set<string>,
    media: seq<string>,
    pages: seq<PageInfo>,
    lastKey: int,
    currentlyScanning: int,
    max: int,
    timer: bool)

  // ---------------------------------------------------------------------------
  // Helpers shared by the seed and the merge.
  // ---------------------------------------------------------------------------

  /** The loop `for (x of xs) if (acc.indexOf(x) === -1 && keep(x)) acc.push(x)`. */
  function AppendNew(acc: seq<string>, xs: seq<string>, keep: string -> bool): (r: seq<string>)
    ensures acc <= r
    ensures forall x :: x in r <==> x in acc || (x in xs && keep(x))
    decreases |xs|
  {
    if |xs| == 0 then acc
    else
      var next := if xs[0] !in acc && keep(xs[0]) then acc + [xs[0]] else acc;
      var r := AppendNew(next, xs[1..], keep);
      assert forall x :: x in xs <==> x == xs[0] || x in xs[1..];
      r
  }

  /** The loop read from its last step: the final entry of `xs` is pushed exactly when it is
      accepted and not present after the earlier steps. With `acc <= r` this fixes the order
      of everything `AppendNew` appends. */
  lemma {:induction false} AppendNewSnoc(acc: seq<string>, xs: seq<string>, x: string,
                                         keep: string -> bool)
    ensures var r := AppendNew(acc, xs, keep);
      AppendNew(acc, xs + [x], keep) == if keep(x) && x !in r then r + [x] else r
    decreases |xs|
  {
    if |xs| == 0 {
      assert xs + [x] == [x];
      assert [x][1..] == [];
    } else {
      assert (xs + [x])[0] == xs[0];
      assert (xs + [x])[1..] == xs[1..] + [x];
      var next := if xs[0] !in acc && keep(xs[0]) then acc + [xs[0]] else acc;
      AppendNewSnoc(next, xs[1..], x, keep);
    }
  }

  /** No entry from position `n` on is repeated, if none was before. */
  lemma {:induction false} AppendNewNoDup(acc: seq<string>, xs: seq<string>,
                                          keep: string -> bool, n: nat)
    requires n <= |acc| && NoDup(acc[n..])
    ensures NoDup(AppendNew(acc, xs, keep)[n..])
    decreases |xs|
  {
    if |xs| > 0 {
      if xs[0] !in acc && keep(xs[0]) {
        var next := acc + [xs[0]];
        assert next[n..] == acc[n..] + [xs[0]];
        assert xs[0] !in acc[n..] by {
          forall k | 0 <= k < |acc[n..]|
            ensures acc[n..][k] != xs[0]
          {
            assert acc[n..][k] == acc[n + k];
          }
        }
        NoDupAppend(acc[n..], xs[0]);
        AppendNewNoDup(next, xs[1..], keep, n);
      } else {
        AppendNewNoDup(acc, xs[1..], keep, n);
      }
    }
  }

  /** `doneScanning`: every marked link has finished. */
  predicate AllDone(scanned: map<string, bool>) {
    forall u :: u in scanned ==> scanned[u]
  }

  /** The loop of `doneScanning` over the keys of `scannedLinks`: false at the first link
      still in flight, true when there is none. */
  method DoneScanning(scanned: map<string, bool>) returns (b: bool)
    ensures b <==> AllDone(scanned)
  {
    var rest := scanned.Keys;
    while rest != {}
      invariant rest <= scanned.Keys
      invariant forall u :: u in scanned && u !in rest ==> scanned[u]
      decreases |rest|
    {
      var u :| u in rest;
      if !scanned[u] {
        return false;
      }
      rest := rest - {u};
    }
    return true;
  }

  /** `!isBlockedURL(link)` as its callers read it. */
  function Unblocked(blocked: seq<string>): string -> bool {
    u => !Truthy(IsBlockedURL(blocked, u))
  }

  // ---------------------------------------------------------------------------
  // Seeding.
  // ---------------------------------------------------------------------------

  datatype Seeded =
    | MainFailed                                          // the error callback fires
    | DoneAtOnce(media: seq<string>, pages: seq<PageInfo>)  // no links: `done` fires
    | Crawling(crawl: Crawl)

  /** What `start` does with the main page's scan: the main page and the unblocked links
      it found become the frontier, with the main page marked finished. */
  function Seed(main: string, scan: Outcome, blocked: seq<string>, max: int): (s: Seeded)
    ensures scan.Thrown? <==> s.MainFailed?
    ensures s.DoneAtOnce? <==> scan.Completed? && |scan.found.links| == 0
    ensures s.Crawling? ==>
      && |s.crawl.links| >= 1 && s.crawl.links[0] == main
      && (forall u :: u in s.crawl.links[1..] <==>
            u in scan.found.links && !Truthy(IsBlockedURL(blocked, u)))
      && s.crawl.links == [main] + Filter(scan.found.links, Unblocked(blocked))
      && s.crawl.scanned == map[main := true]
      && s.crawl.media == scan.found.media && s.crawl.pages == [PageInfo(main, 1, scan.found)]
      && s.crawl.localBlocked == {} && s.crawl.lastKey == 1 && s.crawl.currentlyScanning == 0
      && s.crawl.i == 1 && s.crawl.max == max && s.crawl.timer
  {
    if scan.Thrown? then MainFailed
    else
      var page := PageInfo(main, 1, scan.found);
      if |scan.found.links| == 0 then DoneAtOnce(scan.found.media, [page])
      else
        var links := [main] + Filter(scan.found.links, Unblocked(blocked));
        assert links[1..] == Filter(scan.found.links, Unblocked(blocked));
        Crawling(Crawl(links, 1, map[main := true], {}, scan.found.media, [page], 1, 0, max, true))
  }

  // ---------------------------------------------------------------------------
  // The timer callback.
  // ---------------------------------------------------------------------------

  /** The first position from `j` on whose link is not marked, or the end of the list:
      where the `while (scannedLinks[link] !== undefined)` loop stops. */
  function NextUnmarked(links: seq<string>, scanned: map<string, bool>, j: nat): (r: nat)
    requires j <= |links|
    ensures j <= r <= |links|
    ensures forall k :: j <= k < r ==> links[k] in scanned
    ensures r < |links| ==> links[r] !in scanned
    decreases |links| - j
  {
    if j == |links| || links[j] !in scanned then j
    else NextUnmarked(links, scanned, j + 1)
  }

  /** A link the replacement loop may pick: neither marked nor blocked for this run. */
  predicate Eligible(st: Crawl, k: nat)
    requires k < |st.links|
  {
    st.links[k] !in st.scanned && st.links[k] !in st.localBlocked
  }

  /** The replacement loop `for (j = 0; j < links.length; j++)`, which has no `break` and
      so keeps the last eligible position it meets. */
  function LastEligible(st: Crawl, j: nat, acc: Option<nat>): (r: Option<nat>)
    requires j <= |st.links|
    requires acc.Some? ==> acc.value < j && Eligible(st, acc.value)
    requires acc.Some? ==> forall k :: acc.value < k < j ==> !Eligible(st, k)
    requires acc.None? ==> forall k :: 0 <= k < j ==> !Eligible(st, k)
    ensures r.Some? ==> r.value < |st.links| && Eligible(st, r.value)
    ensures r.Some? ==> forall k :: r.value < k < |st.links| ==> !Eligible(st, k)
    ensures r.None? ==> forall k :: 0 <= k < |st.links| ==> !Eligible(st, k)
    decreases |st.links| - j
  {
    if j == |st.links| then acc
    else LastEligible(st, j + 1, if Eligible(st, j) then Some(j) else acc)
  }

  /** Where one timer callback leaves the crawl, which link it marked, and whether it
      fired `done`. */
  datatype TickResult = TickResult(next: Crawl, admitted: Option<string>, fireDone: bool)

  /** Where the callback looks for a link: `i`, moved past marked links when the link at
      `i` is marked. */
  function Candidate(st: Crawl): (j: nat)
    requires st.i <= |st.links|
  {
    if st.i < |st.links| && st.links[st.i] in st.scanned then NextUnmarked(st.links, st.scanned, st.i)
    else st.i
  }

  /** The callback's `!link` case: the position is at the end of the list, or the skipping
      loop stopped on an empty link. (When the skipping loop runs off the end, it returns
      before that test.) */
  predicate NothingToScan(st: Crawl)
    requires st.i <= |st.links|
  {
    st.i == |st.links| || (Candidate(st) < |st.links| && st.links[Candidate(st)] == "")
  }

  /** `intervalFunction`. Every outcome but an admission clears the interval. */
  function Tick(st: Crawl): (t: TickResult)
    requires st.i <= |st.links|
    // nothing is marked while ten pages are in flight or the budget is used up
    ensures st.currentlyScanning >= 10 || |st.scanned| >= st.max ==>
      t.admitted.None? && t.next.scanned == st.scanned
    // a marked link was a link of the frontier and was not marked before
    ensures t.admitted.Some? ==>
      && t.admitted.value in st.links && t.admitted.value !in st.scanned
      && t.next.scanned == st.scanned[t.admitted.value := false]
      && |st.scanned| < st.max && t.next.timer == st.timer
    ensures t.admitted.None? ==> t.next.scanned == st.scanned && !t.next.timer
    ensures t.fireDone ==> t.admitted.None?
    // `done` fires, when every mark is finished, once the budget is used up or when there is
    // no link left to scan
    ensures t.fireDone <==>
      st.currentlyScanning < 10 && (|st.scanned| >= st.max || NothingToScan(st)) &&
      AllDone(st.scanned)
    ensures t.next.i <= |st.links|
    ensures t.next == st.(i := t.next.i, scanned := t.next.scanned, timer := t.next.timer)
  {
    if st.currentlyScanning >= 10 then TickResult(st.(timer := false), None, false)
    else if |st.scanned| >= st.max then TickResult(st.(timer := false), None, AllDone(st.scanned))
    else
      var j := Candidate(st);
      if st.i < |st.links| && j == |st.links| then
        // the skipping loop ran off the end of the list
        TickResult(st.(i := j, timer := false), None, false)
      else if j == |st.links| || st.links[j] == "" then
        // no link to scan: finish, or come back to the end of the list later
        var done := AllDone(st.scanned);
        TickResult(st.(i := if done then j else |st.links|, timer := false), None, done)
      else
        var p := Choose(st, j);
        TickResult(st.(i := p.next, scanned := st.scanned[p.link := false]), Some(p.link), false)
  }

  /** When every link from `i` on is marked, the skipping loop runs off the end: the interval
      is cleared, nothing is marked and `done` is not fired, whether or not every mark is
      finished; a timer that no longer runs then changes nothing. */
  lemma RunOffEndStalls(st: Crawl)
    requires st.i < |st.links| && st.currentlyScanning < 10 && |st.scanned| < st.max
    requires forall k :: st.i <= k < |st.links| ==> st.links[k] in st.scanned
    ensures Tick(st).admitted.None? && !Tick(st).fireDone && !Tick(st).next.timer
    ensures Tick(st).next.i == |st.links|
    ensures Step(Tick(st).next, TimerFires) == Some(Tick(st).next)
  {
    var j := NextUnmarked(st.links, st.scanned, st.i);
    assert j == |st.links|;
  }

  /** A main page whose only same-site link is itself (`http://a.com/` with the href `/`):
      every mark is finished and nothing is in flight, yet the first tick clears the interval
      without firing `done`, so `done` never fires. */
  lemma SelfLinkNeverDone(main: string)
    ensures var st := Crawl([main, main], 1, map[main := true], {}, [], [], 1, 0, 100, true);
      && AllDone(st.scanned) && st.currentlyScanning == 0
      && Tick(st).admitted.None? && !Tick(st).fireDone && !Tick(st).next.timer
      && Step(Tick(st).next, TimerFires) == Some(Tick(st).next)
  {
    var st := Crawl([main, main], 1, map[main := true], {}, [], [], 1, 0, 100, true);
    RunOffEndStalls(st);
  }

  /** The link a callback marks, and where the next callback starts looking. */
  datatype Pick = Pick(link: string, next: nat)

  /** The choice for the candidate at `j`: the candidate itself unless it is blocked for
      this run; then the last eligible link of the list, and the candidate again when there
      is none. */
  function Choose(st: Crawl, j: nat): (p: Pick)
    requires j < |st.links|
    ensures st.links[j] !in st.localBlocked ==> p == Pick(st.links[j], j + 1)
    ensures st.links[j] in st.localBlocked && (exists k :: 0 <= k < |st.links| && Eligible(st, k)) ==>
      exists k :: 0 <= k < |st.links| && Eligible(st, k) &&
        (forall q :: k < q < |st.links| ==> !Eligible(st, q)) && p == Pick(st.links[k], k + 1)
    ensures st.links[j] in st.localBlocked && (forall k :: 0 <= k < |st.links| ==> !Eligible(st, k)) ==>
      p == Pick(st.links[j], j + 1)
    ensures p.link in st.links && p.next <= |st.links|
    ensures p.link == st.links[j] || (p.link !in st.scanned && p.link !in st.localBlocked)
  {
    if st.links[j] !in st.localBlocked then Pick(st.links[j], j + 1)
    else
      var r := LastEligible(st, 0, None);
      if r.Some? then Pick(st.links[r.value], r.value + 1) else Pick(st.links[j], j + 1)
  }

  /** When the callback reaches a usable candidate it marks what `Choose` picks for it. */
  lemma TickMarksChoice(st: Crawl)
    requires st.i <= |st.links| && st.currentlyScanning < 10 && |st.scanned| < st.max
    requires Candidate(st) < |st.links| && st.links[Candidate(st)] != ""
    ensures Tick(st).admitted == Some(Choose(st, Candidate(st)).link)
    ensures Tick(st).next.i == Choose(st, Candidate(st)).next
  {
  }

  // ---------------------------------------------------------------------------
  // The probe and listener callbacks.
  // ---------------------------------------------------------------------------

  /** The content probe refused the link: its mark is deleted and it is blocked for this
      run. */
  function Refuse(st: Crawl, url: string): (r: Crawl)
    ensures url !in r.scanned && url in r.localBlocked
    ensures r.scanned.Keys == st.scanned.Keys - {url}
    ensures forall u :: u in r.scanned ==> r.scanned[u] == st.scanned[u]
    ensures r == st.(scanned := r.scanned, localBlocked := r.localBlocked)
  {
    st.(scanned := st.scanned - {url}, localBlocked := st.localBlocked + {url})
  }

  /** The `pageStart` listener asked to skip the page: as a refusal, after the page has
      taken a key. */
  function Skip(st: Crawl, url: string): (r: Crawl)
    ensures url !in r.scanned && url in r.localBlocked
    ensures r.scanned.Keys == st.scanned.Keys - {url}
    ensures forall u :: u in r.scanned ==> r.scanned[u] == st.scanned[u]
    ensures r.lastKey == st.lastKey + 1
    ensures r == st.(scanned := r.scanned, localBlocked := r.localBlocked, lastKey := r.lastKey)
  {
    Refuse(st, url).(lastKey := st.lastKey + 1)
  }

  /** The page is created with the next key and counted as in flight. */
  function Begin(st: Crawl): (r: Crawl)
    ensures r.lastKey == st.lastKey + 1 && r.currentlyScanning == st.currentlyScanning + 1
    ensures r == st.(lastKey := r.lastKey, currentlyScanning := r.currentlyScanning)
  {
    st.(lastKey := st.lastKey + 1, currentlyScanning := st.currentlyScanning + 1)
  }

  // ---------------------------------------------------------------------------
  // The scan callback of a followed page.
  // ---------------------------------------------------------------------------

  datatype Merged =
    | Crashed                                  // `scannedLinks[page.url]` is undefined
    | Merged(crawl: Crawl, fireDone: bool)

  /** Folds a finished page into the crawl: new media and new unblocked links are appended,
      the page is recorded and its mark set to finished. `unblocked` is the test
      `!isBlockedURL(link)` against the block list of the moment, `Unblocked(blocked)`. */
  function Merge(st: Crawl, page: PageInfo, unblocked: string -> bool): (m: Merged)
    ensures m.Crashed? <==> page.url !in st.scanned
    ensures m.Merged? ==>
      && st.media <= m.crawl.media && st.links <= m.crawl.links
      && (forall u :: u in m.crawl.media <==> u in st.media || u in page.found.media)
      && (forall u :: u in m.crawl.links <==>
            u in st.links || (u in page.found.links && unblocked(u)))
      && m.crawl.pages == st.pages + [page]
      && m.crawl.scanned == st.scanned[page.url := true]
      && m.crawl.currentlyScanning == st.currentlyScanning - 1
      && (m.fireDone <==> AllDone(m.crawl.scanned))
      && (m.crawl.timer ==> st.timer)
      && m.crawl == st.(media := m.crawl.media, links := m.crawl.links, pages := m.crawl.pages,
                        scanned := m.crawl.scanned, currentlyScanning := m.crawl.currentlyScanning,
                        timer := m.crawl.timer)
  {
    if page.url !in st.scanned then Crashed
    else
      var scanned := st.scanned[page.url := true];
      var done := AllDone(scanned);
      var next := st.(
        media := AppendNew(st.media, page.found.media, _ => true),
        links := AppendNew(st.links, page.found.links, unblocked),
        pages := st.pages + [page],
        scanned := scanned,
        currentlyScanning := st.currentlyScanning - 1,
        timer := st.timer && !(|scanned| >= st.max && done));
      Merged(next, done)
  }

  /** A merge keeps the media list and the part of the frontier after the main page free of
      duplicates. */
  lemma MergeNoDup(st: Crawl, page: PageInfo, unblocked: string -> bool)
    requires page.url in st.scanned
    requires NoDup(st.media) && |st.links| >= 1 && NoDup(st.links[1..])
    ensures var m := Merge(st, page, unblocked);
      NoDup(m.crawl.media) && NoDup(m.crawl.links[1..])
  {
    assert st.media[0..] == st.media;
    AppendNewNoDup(st.media, page.found.media, _ => true, 0);
    assert AppendNew(st.media, page.found.media, _ => true)[0..] ==
           AppendNew(st.media, page.found.media, _ => true);
    AppendNewNoDup(st.links, page.found.links, unblocked, 1);
  }

  // ---------------------------------------------------------------------------
  // Runs.
  // ---------------------------------------------------------------------------

  /** What can happen to the crawl between two moments. */
  datatype Event =
    | TimerFires
    | ProbeRefuses(url: string)
    | ListenerSkips(url: string)
    | PageBegins
    | PageFinishes(page: PageInfo, blocked: seq<string>)

  /** One event; `None` when the merge hits a missing mark. A stopped timer does not fire. */
  function Step(st: Crawl, e: Event): (r: Option<Crawl>)
    requires st.i <= |st.links|
    ensures r.None? <==> e.PageFinishes? && e.page.url !in st.scanned
    ensures e.TimerFires? && !st.timer ==> r == Some(st)
    ensures r.Some? ==> r.value.max == st.max && (r.value.timer ==> st.timer)
  {
    match e
    case TimerFires => if st.timer then Some(Tick(st).next) else Some(st)
    case ProbeRefuses(url) => Some(Refuse(st, url))
    case ListenerSkips(url) => Some(Skip(st, url))
    case PageBegins => Some(Begin(st))
    case PageFinishes(page, blocked) =>
      var m := Merge(st, page, Unblocked(blocked));
      if m.Crashed? then None else Some(m.crawl)
  }

  function Budget(max: int): nat {
    if max < 1 then 1 else max
  }

  /** What holds of the crawl at every moment. */
  predicate Inv(st: Crawl) {
    && 1 <= |st.links| && st.i <= |st.links|
    && NoDup(st.media) && NoDup(st.links[1..])
    && (forall u :: u in st.scanned ==> u in st.links)
    && |st.scanned| <= Budget(st.max)
  }

  /** The seed satisfies the invariant when the main page's lists have no duplicates. */
  lemma SeedInv(main: string, scan: Outcome, blocked: seq<string>, max: int)
    requires NoDup(scan.found.media) && NoDup(scan.found.links)
    ensures var s := Seed(main, scan, blocked, max);
      s.Crawling? ==> Inv(s.crawl)
  {
    var s := Seed(main, scan, blocked, max);
    if s.Crawling? {
      FilterNoDup(scan.found.links, Unblocked(blocked));
      assert s.crawl.links[1..] == Filter(scan.found.links, Unblocked(blocked));
      assert s.crawl.scanned.Keys == {main};
    }
  }

  lemma TickInv(st: Crawl)
    requires Inv(st)
    ensures Inv(Tick(st).next)
  {
    var t := Tick(st);
    if t.admitted.Some? {
      var l := t.admitted.value;
      assert t.next.scanned.Keys == st.scanned.Keys + {l};
      assert |t.next.scanned.Keys| == |st.scanned.Keys| + 1;
    }
  }

  lemma RefuseInv(st: Crawl, url: string)
    requires Inv(st)
    ensures Inv(Refuse(st, url)) && Inv(Skip(st, url))
  {
    var r := Refuse(st, url);
    assert r.scanned.Keys <= st.scanned.Keys;
    SubsetCard(r.scanned.Keys, st.scanned.Keys);
  }

  lemma SubsetCard(a: set<string>, b: set<string>)
    requires a <= b
    ensures |a| <= |b|
  {
    assert b == a + (b - a);
  }

  /** The invariant carries over to a crawl whose frontier only grew, whose marks are the
      same keys, and whose lists are still free of duplicates. */
  lemma GrownInv(st: Crawl, c: Crawl)
    requires Inv(st)
    requires c.i == st.i && c.max == st.max && st.links <= c.links
    requires c.scanned.Keys == st.scanned.Keys
    requires NoDup(c.media) && NoDup(c.links[1..])
    ensures Inv(c)
  {
    forall u | u in c.scanned
      ensures u in c.links
    {
      PrefixIn(st.links, c.links, u);
    }
  }

  lemma MergeInv(st: Crawl, page: PageInfo, unblocked: string -> bool)
    requires Inv(st)
    requires page.url in st.scanned
    ensures Inv(Merge(st, page, unblocked).crawl)
  {
    var c := Merge(st, page, unblocked).crawl;
    MergeNoDup(st, page, unblocked);
    assert c.scanned.Keys == st.scanned.Keys;
    GrownInv(st, c);
  }

  lemma StepInv(st: Crawl, e: Event)
    requires Inv(st)
    ensures Step(st, e).Some? ==> Inv(Step(st, e).value)
  {
    match e
    case TimerFires => if st.timer { TickInv(st); }
    case ProbeRefuses(url) => RefuseInv(st, url);
    case ListenerSkips(url) => RefuseInv(st, url);
    case PageBegins =>
    case PageFinishes(page, blocked) =>
      if page.url in st.scanned { MergeInv(st, page, Unblocked(blocked)); }
  }

  /** The events in order, until one crashes. After any run the invariant holds: in
      particular the number of marked links never goes past the budget `max` (or the one
      main page when `max` is below 1). */
  function Run(st: Crawl, es: seq<Event>): (r: Option<Crawl>)
    requires Inv(st)
    ensures r.Some? ==> Inv(r.value) && r.value.max == st.max
    ensures r.Some? ==> |r.value.scanned| <= Budget(st.max)
    decreases |es|
  {
    if |es| == 0 then Some(st)
    else
      StepInv(st, es[0]);
      var s := Step(st, es[0]);
      if s.None? then None else Run(s.value, es[1..])
  }

  /** Once the interval is cleared nothing sets it again: `t` is never `undefined` after the
      first `setInterval`, so the merge never restarts it. */
  lemma {:induction false} TimerNeverRestarts(st: Crawl, es: seq<Event>)
    requires Inv(st) && !st.timer
    ensures Run(st, es).Some? ==> !Run(st, es).value.timer
    decreases |es|
  {
    if |es| > 0 {
      StepInv(st, es[0]);
      var s := Step(st, es[0]);
      if s.Some? {
        TimerNeverRestarts(s.value, es[1..]);
      }
    }
  }
}

=== FILE: medium_list.dfy ===
/** The scanner's list of social-medium prefixes and the two calls that edit it,
    `addMedium` and `removeMedium` of index.js.

    Both take a string or an array of strings; any other argument, for which `typeof`
    is neither `"string"` nor `"object"`, leaves the list as it is. */
module MediumList {
  import opened JsStrings

  /** The argument of `addMedium` and `removeMedium`. */
  datatype MediumArg = One(s: string) | Many(ss: seq<string>) | Other

  /** Whether `removeMedium(arg)` drops the entry `x`. */
  predicate Drops(arg: MediumArg, x: string) {
    match arg
    case One(s) => x == s
    case Many(ss) => IndexOf(ss, x) != -1
    case Other => false
  }

  /** `addMedium`: a string is pushed, an array is concatenated, anything else is ignored. */
  function AddMedium(l: seq<string>, arg: MediumArg): (r: seq<string>)
    ensures l <= r
    ensures forall x :: x in r <==> x in l || (arg.One? && x == arg.s) || (arg.Many? && x in arg.ss)
    ensures arg.One? ==> |r| == |l| + 1 && r[|l|] == arg.s
    ensures arg.Many? ==> r[|l|..] == arg.ss
    ensures arg.Other? ==> r == l
  {
    match arg
    case One(s) => l + [s]
    case Many(ss) => l + ss
    case Other => l
  }

  /** The entries `removeMedium(arg)` keeps. */
  function Kept(arg: MediumArg): string -> bool {
    x => !Drops(arg, x)
  }

  /** The entries of `l` that `arg` does not drop, in their order: the reference for the
      copying loop of `removeMedium`. */
  function Keep(l: seq<string>, arg: MediumArg): seq<string> {
    Filter(l, Kept(arg))
  }

  /** `removeMedium`: copies every entry that `arg` does not name into a fresh array. */
  method RemoveMedium(l: seq<string>, arg: MediumArg) returns (r: seq<string>)
    ensures r == Keep(l, arg)
    ensures forall x :: x in r <==> x in l && !Drops(arg, x)
  {
    if arg.Other? {
      KeepNothing(l, arg);
      return l;
    }
    var temp: seq<string> := [];
    var i := 0;
    while i < |l|
      invariant 0 <= i <= |l|
      invariant temp == Keep(l[..i], arg)
    {
      FilterAppend(l[..i], [l[i]], Kept(arg));
      assert l[..i + 1] == l[..i] + [l[i]];
      if !Drops(arg, l[i]) {
        temp := temp + [l[i]];
      }
      i := i + 1;
    }
    assert l[..i] == l;
    r := temp;
  }

  /** An argument that is neither a string nor an array changes nothing. */
  lemma {:induction false} KeepNothing(l: seq<string>, arg: MediumArg)
    requires arg.Other?
    ensures Keep(l, arg) == l
  {
    if |l| > 0 {
      KeepNothing(l[1..], arg);
      assert [l[0]] + l[1..] == l;
    }
  }

  /** The entries that survive keep their number of occurrences. */
  lemma {:induction false} KeepCounts(l: seq<string>, arg: MediumArg, x: string)
    requires !Drops(arg, x)
    ensures multiset(Keep(l, arg))[x] == multiset(l)[x]
  {
    if |l| > 0 {
      KeepCounts(l[1..], arg, x);
      assert l == [l[0]] + l[1..];
      assert multiset(l) == multiset([l[0]]) + multiset(l[1..]);
      if !Drops(arg, l[0]) {
        assert multiset(Keep(l, arg)) == multiset([l[0]]) + multiset(Keep(l[1..], arg));
      } else {
        assert l[0] != x;
      }
    }
  }

  /** Removing twice removes nothing more. */
  lemma {:induction false} RemoveIdempotent(l: seq<string>, arg: MediumArg)
    ensures Keep(Keep(l, arg), arg) == Keep(l, arg)
  {
    if |l| > 0 {
      RemoveIdempotent(l[1..], arg);
      if !Drops(arg, l[0]) {
        assert ([l[0]] + Keep(l[1..], arg))[1..] == Keep(l[1..], arg);
      }
    }
  }

  /** Nothing survives of a list whose every entry is dropped. */
  lemma {:induction false} KeepAllDropped(l: seq<string>, arg: MediumArg)
    requires forall k :: 0 <= k < |l| ==> Drops(arg, l[k])
    ensures Keep(l, arg) == []
  {
    if |l| > 0 {
      KeepAllDropped(l[1..], arg);
    }
  }

  /** Removing what was just added leaves the list as removing it from the original would. */
  lemma RemoveAfterAdd(l: seq<string>, arg: MediumArg)
    ensures Keep(AddMedium(l, arg), arg) == Keep(l, arg)
  {
    match arg
    case One(s) =>
      FilterAppend(l, [s], Kept(arg));
      assert Keep([s], arg) == [];
      assert Keep(l, arg) + [] == Keep(l, arg);
    case Many(ss) =>
      FilterAppend(l, ss, Kept(arg));
      assert forall k :: 0 <= k < |ss| ==> ss[k] in ss;
      KeepAllDropped(ss, arg);
      assert Keep(l, arg) + [] == Keep(l, arg);
    case Other =>
  }
}

=== FILE: medium_regex.dfy ===
/** The fuzzy social-media matcher of index.js.

    `createRegexPart` turns one medium prefix into regular-expression source text:
    separators become `.`, special characters are escaped, and unless the prefix is a
    short label (`fb.com/`) the result is the alternation of every variant in which one
    character is replaced by `.`. `createMediumRegex` joins all parts into one group,
    preceded by an optional run of slashes and followed by `(.*)`; that expression is
    unanchored, so `test` succeeds exactly when one alternative occurs somewhere in the link.

    The model builds the source text exactly as the loops do (`RegexPart`,
    `MediumRegexSource`), reads each alternative back into a `Pattern` of `Any` and
    `Lit` tokens (`Interpret`), and matches patterns against links (`IsMedium`).
    The per-character reading of the algorithm is `IntendedAlternatives`; the lemma
    `AsWrittenIsIntended` connects the two. */
module MediumRegex {
  import opened JsStrings

  // ---------------------------------------------------------------------------
  // Building the source text, as createRegexPart and createMediumRegex do.
  // ---------------------------------------------------------------------------

  /** The characters listed in `specialChars`; each is preceded by a backslash. */
  predicate IsSpecial(c: char) {
    || c == '/' || c == '\\' || c == '(' || c == ')' || c == '|' || c == '?' || c == '#'
    || c == '$' || c == '^' || c == '>' || c == '<' || c == '*' || c == '[' || c == ']'
  }

  /** The separators `[-\s_]` that are rewritten to `.`. */
  predicate IsSeparator(c: char) {
    c == '-' || IsJsSpace(c) || c == '_'
  }

  function NormalizeChar(c: char): char {
    if IsSeparator(c) then '.' else c
  }

  /** `part.replace(/[-\s_]/g, ".")`. */
  function Normalize(part: string): (n: string)
    ensures |n| == |part|
    ensures forall k :: 0 <= k < |n| ==> !IsSeparator(n[k]) && !IsLineTerminator(n[k])
    ensures forall k :: 0 <= k < |n| ==> n[k] == part[k] || (IsSeparator(part[k]) && n[k] == '.')
  {
    seq(|part|, k requires 0 <= k < |part| => NormalizeChar(part[k]))
  }

  function EscapeChar(c: char): string {
    if IsSpecial(c) then ['\\', c] else [c]
  }

  /** `part_copy`: every special character preceded by a backslash. */
  function Escape(n: string): string {
    if |n| == 0 then "" else EscapeChar(n[0]) + Escape(n[1..])
  }

  lemma {:induction false} EscapeAppend(a: string, b: string)
    ensures Escape(a + b) == Escape(a) + Escape(b)
  {
    if |a| > 0 {
      assert (a + b)[0] == a[0];
      assert (a + b)[1..] == a[1..] + b;
      EscapeAppend(a[1..], b);
      assert Escape(a + b) == EscapeChar(a[0]) + Escape(a[1..] + b);
    } else {
      assert a + b == b;
    }
  }

  /** `s.split(".")`. */
  function SplitDots(s: string): (pieces: seq<string>)
    ensures |pieces| >= 1
    decreases |s|
  {
    var d := IndexOf(s, '.');
    if d == -1 then [s] else [s[..d]] + SplitDots(s[d + 1..])
  }

  /** The short-label exception: exactly two dot-pieces, the first at most three long. */
  predicate ShortLabel(n: string) {
    var pieces := SplitDots(n);
    |pieces| == 2 && |pieces[0]| <= 3
  }

  lemma SplitOnePiece(s: string)
    ensures |SplitDots(s)| == 1 <==> '.' !in s
  {
  }

  /** The short-label test in terms of the first dot. */
  lemma ShortLabelByFirstDot(n: string)
    ensures var d := IndexOf(n, '.');
      ShortLabel(n) <==> 0 <= d <= 3 && '.' !in n[d + 1..]
  {
    var d := IndexOf(n, '.');
    if d == -1 {
      assert SplitDots(n) == [n];
    } else {
      var rest := n[d + 1..];
      SplitOnePiece(rest);
      var pieces := SplitDots(n);
      assert pieces == [n[..d]] + SplitDots(rest);
      assert |pieces| == 1 + |SplitDots(rest)|;
      assert pieces[0] == n[..d];
    }
  }

  /** A short label is a string with exactly one dot, at position three or earlier. */
  lemma ShortLabelIff(n: string)
    ensures ShortLabel(n) <==>
      exists d :: 0 <= d <= 3 && d < |n| && n[d] == '.' && '.' !in n[..d] && '.' !in n[d + 1..]
  {
    ShortLabelByFirstDot(n);
    var d := IndexOf(n, '.');
    if exists e :: 0 <= e <= 3 && e < |n| && n[e] == '.' && '.' !in n[..e] && '.' !in n[e + 1..] {
      var e :| 0 <= e <= 3 && e < |n| && n[e] == '.' && '.' !in n[..e] && '.' !in n[e + 1..];
      forall j | 0 <= j < e
        ensures n[j] != '.'
      {
        assert n[..e][j] == n[j];
      }
      IndexOfIs(n, '.', e);
    }
    if ShortLabel(n) {
      assert 0 <= d <= 3 && d < |n| && n[d] == '.' && '.' !in n[..d] && '.' !in n[d + 1..];
    }
  }

  /** One step of the variant loop at position `i` of the escaped prefix: the first
      character of an escape pair replaces the pair by `.`, the escaped character is
      skipped, and any other character is replaced by `.`. */
  function VariantAt(pc: string, i: nat): seq<string>
    requires i < |pc|
  {
    if pc[i] == '\\' && i + 1 < |pc| && IsSpecial(pc[i + 1]) then [pc[..i] + "." + pc[i + 2..]]
    else if IsSpecial(pc[i]) && i > 0 && pc[i - 1] == '\\' then []
    else [pc[..i] + "." + pc[i + 1..]]
  }

  /** The variants the loop produces from position `i` on. */
  function VariantsFrom(pc: string, i: nat): seq<string>
    decreases |pc| - i
  {
    if i >= |pc| then [] else VariantAt(pc, i) + VariantsFrom(pc, i + 1)
  }

  /** The alternatives createRegexPart emits for one prefix, before they are joined. */
  function PartStrings(part: string): seq<string> {
    var n := Normalize(part);
    if ShortLabel(n) then [Escape(n)] else VariantsFrom(Escape(n), 0)
  }

  /** `s.slice(0, s.length - 1)`. */
  function DropLast(s: string): string {
    if |s| == 0 then "" else s[..|s| - 1]
  }

  /** createRegexPart: the escaped literal for a short label, otherwise the variants each
      followed by `|`, with the final `|` removed. That is the prefix's alternatives joined
      by `|`. */
  function RegexPart(part: string): (r: string)
    ensures r == Join(GroupEntry(part), "|")
  {
    var n := Normalize(part);
    if ShortLabel(n) then Escape(n)
    else
      var vs := VariantsFrom(Escape(n), 0);
      if |vs| == 0 then DropLast(JoinTrailing(vs, "|"))
      else
        JoinTrailingDropLast(vs, "|");
        DropLastOf(Join(vs, "|"), '|');
        DropLast(JoinTrailing(vs, "|"))
  }

  /** The alternatives one prefix contributes to the group of the whole expression. An
      empty part string still stands between two `|` and is then an empty alternative. */
  function GroupEntry(part: string): (alts: seq<string>)
    ensures |alts| >= 1
  {
    var ps := PartStrings(part);
    if |ps| == 0 then [""] else ps
  }

  function GroupAlternatives(media: seq<string>): seq<string> {
    if |media| == 0 then [] else GroupEntry(media[0]) + GroupAlternatives(media[1..])
  }

  function RegexParts(media: seq<string>): (parts: seq<string>)
    ensures |parts| == |media|
  {
    if |media| == 0 then [] else [RegexPart(media[0])] + RegexParts(media[1..])
  }

  /** createMediumRegex: an optional run of slashes and an open group, every part followed
      by `|`, the last `|` removed, then `)(.*)`. For a non-empty list that is one group
      holding every alternative of every prefix, followed by the catch-all `(.*)`. With no
      prefixes the `(` is what the slice removes, the group is never opened and its `)` is
      unbalanced: `new RegExp` throws a syntax error. */
  function MediumRegexSource(media: seq<string>): (r: string)
    ensures |media| > 0 ==> r == "/*(" + Join(GroupAlternatives(media), "|") + ")(.*)"
    ensures |media| == 0 ==> r == "/*)(.*)"
  {
    var src := DropLast("/*(" + JoinTrailing(RegexParts(media), "|")) + ")(.*)";
    if |media| > 0 then
      DropLastSep("/*(", RegexParts(media));
      JoinOfParts(media);
      src
    else
      assert JoinTrailing(RegexParts(media), "|") == "";
      assert DropLast("/*(") == "/*";
      src
  }

  lemma {:induction false} JoinOfParts(media: seq<string>)
    requires |media| > 0
    ensures Join(RegexParts(media), "|") == Join(GroupAlternatives(media), "|")
    ensures |GroupAlternatives(media)| > 0
  {
    if |media| > 1 {
      JoinOfParts(media[1..]);
      var rest := RegexParts(media[1..]);
      assert RegexParts(media) == [RegexPart(media[0])] + rest;
      assert Join(RegexParts(media), "|") == RegexPart(media[0]) + "|" + Join(rest, "|");
      JoinConcat(GroupEntry(media[0]), GroupAlternatives(media[1..]), "|");
    } else {
      assert media[1..] == [];
      assert RegexParts(media) == [RegexPart(media[0])];
      assert GroupAlternatives(media) == GroupEntry(media[0]) + [];
      assert GroupEntry(media[0]) + [] == GroupEntry(media[0]);
    }
  }

  /** Removing the last character of `x + [c]` gives `x`. */
  lemma DropLastOf(x: string, c: char)
    ensures DropLast(x + [c]) == x
  {
    assert (x + [c])[..|x|] == x;
  }

  /** Removing the last character of a text ending in a `|`-terminated list removes
      the final `|`. */
  lemma DropLastSep(pre: string, parts: seq<string>)
    requires |parts| > 0
    ensures DropLast(pre + JoinTrailing(parts, "|")) == pre + Join(parts, "|")
  {
    JoinTrailingDropLast(parts, "|");
    var x := pre + Join(parts, "|");
    assert pre + JoinTrailing(parts, "|") == x + ['|'];
    DropLastOf(x, '|');
  }

  // ---------------------------------------------------------------------------
  // Reading the source text back: the fragment of regular expressions it uses.
  // ---------------------------------------------------------------------------

  datatype Token = Any | Lit(c: char)

  type Pattern = seq<Token>

  /** The syntax characters of ECMAScript regular expressions. */
  predicate IsRegexMeta(c: char) {
    || c == '^' || c == '$' || c == '\\' || c == '.' || c == '*' || c == '+' || c == '?'
    || c == '(' || c == ')' || c == '[' || c == ']' || c == '{' || c == '}' || c == '|'
  }

  function OptPrepend(p: Pattern, o: Option<Pattern>): Option<Pattern> {
    if o.Some? then Some(p + o.value) else None
  }

  /** One alternative read as a sequence of single-character atoms: `.` is any character
      but a line terminator, `\c` (c special or `.`) is the character c, and any other
      non-syntax character stands for itself. Everything else (quantifiers, groups, a
      dangling backslash, a `|` that would split the alternative) is outside the fragment. */
  function Interpret(a: string): Option<Pattern> {
    if |a| == 0 then Some([])
    else if a[0] == '.' then OptPrepend([Any], Interpret(a[1..]))
    else if a[0] == '\\' then
      if |a| >= 2 && (IsSpecial(a[1]) || a[1] == '.') then OptPrepend([Lit(a[1])], Interpret(a[2..]))
      else None
    else if IsRegexMeta(a[0]) then None
    else OptPrepend([Lit(a[0])], Interpret(a[1..]))
  }

  function InterpretAll(alts: seq<string>): Option<seq<Pattern>> {
    if |alts| == 0 then Some([])
    else
      var head := Interpret(alts[0]);
      var tail := InterpretAll(alts[1..]);
      if head.Some? && tail.Some? then Some([head.value] + tail.value) else None
  }

  // ---------------------------------------------------------------------------
  // The per-character reading of the algorithm.
  // ---------------------------------------------------------------------------

  function TokenOf(c: char): Token {
    if c == '.' then Any else Lit(c)
  }

  /** The prefix as a pattern: its dots (including rewritten separators) match any character. */
  function LiteralPattern(n: string): (p: Pattern)
    ensures |p| == |n|
    ensures forall j :: 0 <= j < |n| ==> p[j] == TokenOf(n[j])
  {
    seq(|n|, j requires 0 <= j < |n| => TokenOf(n[j]))
  }

  /** The prefix with the character at `k` (and, in the source text, its escape) turned into `.`. */
  function Variant(n: string, k: nat): (p: Pattern)
    requires k < |n|
  {
    LiteralPattern(n)[k := Any]
  }

  function VariantsOf(n: string, k: nat): (ps: seq<Pattern>)
    requires k <= |n|
    ensures |ps| == |n| - k
    ensures forall j :: 0 <= j < |ps| ==> ps[j] == Variant(n, k + j)
    decreases |n| - k
  {
    if k == |n| then [] else [Variant(n, k)] + VariantsOf(n, k + 1)
  }

  /** What one prefix stands for: the exact prefix for a short label, otherwise one
      single-wildcard variant per character. The empty prefix leaves an empty alternative. */
  function IntendedAlternatives(part: string): seq<Pattern> {
    var n := Normalize(part);
    if ShortLabel(n) then [LiteralPattern(n)]
    else if |n| == 0 then [[]]
    else VariantsOf(n, 0)
  }

  predicate IsQuantifierChar(c: char) {
    c == '+' || c == '{' || c == '}'
  }

  /** A normalised prefix the escaping handles exactly: no `+`, `{` or `}` (which the source
      leaves as regular-expression syntax), and no backslash directly before a special
      character (where the variant loop mistakes the escaped backslash for an escape). */
  predicate PlainPrefix(n: string) {
    && (forall k :: 0 <= k < |n| ==> !IsQuantifierChar(n[k]))
    && (forall k :: 0 <= k < |n| - 1 ==> !(n[k] == '\\' && IsSpecial(n[k + 1])))
  }

  lemma OptPrependTwice(a: Pattern, b: Pattern, o: Option<Pattern>)
    ensures OptPrepend(a, OptPrepend(b, o)) == OptPrepend(a + b, o)
  {
    if o.Some? {
      assert a + (b + o.value) == (a + b) + o.value;
    }
  }

  /** Reading one escaped character back gives its token. */
  lemma InterpretStep(c: char, rest: string)
    requires !IsQuantifierChar(c)
    ensures Interpret(EscapeChar(c) + rest) == OptPrepend([TokenOf(c)], Interpret(rest))
  {
    var a := EscapeChar(c) + rest;
    if IsSpecial(c) {
      assert a == ['\\', c] + rest;
      assert a[0] == '\\' && a[1] == c && a[2..] == rest;
    } else {
      assert a == [c] + rest;
      assert a[0] == c && a[1..] == rest;
    }
  }

  lemma {:induction false} InterpretEscaped(x: string, t: string)
    requires forall k :: 0 <= k < |x| ==> !IsQuantifierChar(x[k])
    ensures Interpret(Escape(x) + t) == OptPrepend(LiteralPattern(x), Interpret(t))
  {
    if |x| == 0 {
      assert Escape(x) + t == t;
      assert LiteralPattern(x) == [];
      var o := Interpret(t);
      if o.Some? {
        assert [] + o.value == o.value;
      }
    } else {
      var c := x[0];
      InterpretEscaped(x[1..], t);
      var rest := Escape(x[1..]) + t;
      assert Escape(x) + t == EscapeChar(c) + rest;
      InterpretStep(c, rest);
      assert LiteralPattern(x) == [TokenOf(c)] + LiteralPattern(x[1..]);
      OptPrependTwice([TokenOf(c)], LiteralPattern(x[1..]), Interpret(t));
    }
  }

  /** A variant is the prefix's pattern before `k`, a wildcard, and the pattern after `k`. */
  lemma VariantSplit(n: string, k: nat)
    requires k < |n|
    ensures Variant(n, k) == LiteralPattern(n[..k]) + [Any] + LiteralPattern(n[k + 1..])
  {
    var w := LiteralPattern(n[..k]) + [Any] + LiteralPattern(n[k + 1..]);
    forall j | 0 <= j < |n|
      ensures Variant(n, k)[j] == w[j]
    {
      if j < k {
        assert n[..k][j] == n[j];
      } else if j > k {
        assert n[k + 1..][j - k - 1] == n[j];
      }
    }
  }

  lemma InterpretVariantString(n: string, k: nat)
    requires k < |n|
    requires forall j :: 0 <= j < |n| ==> !IsQuantifierChar(n[j])
    ensures Interpret(Escape(n[..k]) + "." + Escape(n[k + 1..])) == Some(Variant(n, k))
  {
    var tail := Escape(n[k + 1..]);
    var lp := LiteralPattern(n[k + 1..]);
    assert Interpret(tail) == Some(lp) by {
      InterpretEscaped(n[k + 1..], "");
      assert tail + "" == tail;
      assert lp + [] == lp;
    }
    var dt := "." + tail;
    assert Interpret(dt) == Some([Any] + lp) by {
      InterpretStep('.', tail);
    }
    InterpretEscaped(n[..k], dt);
    assert Escape(n[..k]) + "." + tail == Escape(n[..k]) + dt;
    VariantSplit(n, k);
    assert LiteralPattern(n[..k]) + ([Any] + lp) == Variant(n, k);
  }

  /** The source-text variants of positions k.. of the prefix, one per character. */
  function VariantStrings(n: string, k: nat): seq<string>
    requires k <= |n|
    decreases |n| - k
  {
    if k == |n| then [] else [Escape(n[..k]) + "." + Escape(n[k + 1..])] + VariantStrings(n, k + 1)
  }

  /** Escaping a string is escaping its two halves, wherever it is cut. */
  lemma {:induction false} EscapeAt(n: string, i: nat)
    requires i <= |n|
    ensures Escape(n) == Escape(n[..i]) + Escape(n[i..])
  {
    if i == 0 {
      assert n[..0] == [] && n[0..] == n;
    } else {
      EscapeAt(n[1..], i - 1);
      assert n[1..][..i - 1] == n[..i][1..];
      assert n[1..][i - 1..] == n[i..];
      assert n[..i][0] == n[0];
    }
  }

  lemma EscapeSnoc(n: string, k: nat)
    requires k < |n|
    ensures Escape(n[..k + 1]) == Escape(n[..k]) + EscapeChar(n[k])
  {
    EscapeOne(n[k]);
    assert n[..k + 1] == n[..k] + [n[k]];
    EscapeAppend(n[..k], [n[k]]);
  }

  lemma EscapeSplit(n: string, k: nat)
    requires k < |n|
    ensures Escape(n) == Escape(n[..k]) + EscapeChar(n[k]) + Escape(n[k + 1..])
    ensures Escape(n[..k + 1]) == Escape(n[..k]) + EscapeChar(n[k])
  {
    EscapeSnoc(n, k);
    EscapeAt(n, k + 1);
  }

  lemma EscapeOne(c: char)
    ensures Escape([c]) == EscapeChar(c)
  {
    assert [c][1..] == [];
  }

  lemma EscapeFirst(x: string)
    requires |x| > 0
    ensures |Escape(x)| > 0 && (IsSpecial(Escape(x)[0]) <==> IsSpecial(x[0]))
  {
  }

  /** At the backslash of an escape pair the loop emits one variant and skips the
      escaped character, unless that character is a backslash followed by another escape. */
  lemma StepAtPair(a: string, c: char, b: string)
    requires IsSpecial(c)
    requires !(c == '\\' && |b| > 0 && IsSpecial(b[0]))
    ensures var pc := a + ['\\', c] + b;
      VariantsFrom(pc, |a|) == [a + "." + b] + VariantsFrom(pc, |a| + 2)
  {
    var pc := a + ['\\', c] + b;
    var i := |a|;
    assert pc[i] == '\\' && pc[i + 1] == c;
    assert pc[..i] == a && pc[i + 2..] == b;
    assert VariantAt(pc, i) == [a + "." + b];
    if i + 2 < |pc| {
      assert pc[i + 2] == b[0];
    }
    assert VariantAt(pc, i + 1) == [];
    assert VariantsFrom(pc, i + 1) == VariantsFrom(pc, i + 2);
  }

  /** At an unescaped character the loop emits one variant. */
  lemma StepAtPlain(a: string, c: char, b: string)
    requires !IsSpecial(c)
    ensures var pc := a + [c] + b;
      VariantsFrom(pc, |a|) == [a + "." + b] + VariantsFrom(pc, |a| + 1)
  {
    var pc := a + [c] + b;
    var i := |a|;
    assert pc[i] == c;
    assert pc[..i] == a && pc[i + 1..] == b;
    assert VariantAt(pc, i) == [a + "." + b];
  }

  /** The variant loop visits the escaped prefix and emits exactly one variant per
      character of the normalised prefix, provided no backslash precedes a special character. */
  lemma {:induction false} LoopEmitsOnePerChar(n: string, k: nat)
    requires k <= |n|
    requires forall j :: 0 <= j < |n| - 1 ==> !(n[j] == '\\' && IsSpecial(n[j + 1]))
    ensures VariantsFrom(Escape(n), |Escape(n[..k])|) == VariantStrings(n, k)
    decreases |n| - k
  {
    var pc := Escape(n);
    if k == |n| {
      assert n[..k] == n;
    } else {
      EscapeSplit(n, k);
      var a := Escape(n[..k]);
      var b := Escape(n[k + 1..]);
      var c := n[k];
      LoopEmitsOnePerChar(n, k + 1);
      assert VariantStrings(n, k) == [a + "." + b] + VariantStrings(n, k + 1);
      if IsSpecial(c) {
        if |b| > 0 {
          EscapeFirst(n[k + 1..]);
          assert n[k + 1..][0] == n[k + 1];
        }
        StepAtPair(a, c, b);
      } else {
        StepAtPlain(a, c, b);
      }
    }
  }

  lemma {:induction false} InterpretVariantStrings(n: string, k: nat)
    requires k <= |n|
    requires forall j :: 0 <= j < |n| ==> !IsQuantifierChar(n[j])
    ensures InterpretAll(VariantStrings(n, k)) == Some(VariantsOf(n, k))
    decreases |n| - k
  {
    if k < |n| {
      InterpretVariantString(n, k);
      InterpretVariantStrings(n, k + 1);
      assert VariantStrings(n, k)[1..] == VariantStrings(n, k + 1);
    }
  }

  /** The alternatives createRegexPart writes, read back as patterns, are exactly the
      per-character variants (or the literal, for a short label). */
  lemma AsWrittenIsIntended(part: string)
    requires PlainPrefix(Normalize(part))
    ensures InterpretAll(GroupEntry(part)) == Some(IntendedAlternatives(part))
  {
    var n := Normalize(part);
    if ShortLabel(n) {
      InterpretEscaped(n, "");
      assert Escape(n) + "" == Escape(n);
      assert Interpret("") == Some([]);
      assert LiteralPattern(n) + [] == LiteralPattern(n);
      assert GroupEntry(part) == [Escape(n)];
      assert [Escape(n)][1..] == [];
      assert InterpretAll([Escape(n)][1..]) == Some([]);
      assert [LiteralPattern(n)] + [] == [LiteralPattern(n)];
    } else if |n| == 0 {
      assert Escape(n) == "";
      assert PartStrings(part) == [];
      assert GroupEntry(part) == [""];
      assert InterpretAll([""]) == Some([[]]) by {
        assert [""][1..] == [];
        assert Interpret("") == Some([]);
        assert InterpretAll([""][1..]) == Some([]);
        var e: Pattern := [];
        assert [e] + [] == [e];
      }
    } else {
      assert n[..0] == [];
      LoopEmitsOnePerChar(n, 0);
      InterpretVariantStrings(n, 0);
    }
  }

  /** For a prefix outside the short-label case there is one alternative per character of
      the normalised prefix, and alternative k is the prefix with only position k wild. */
  lemma OneAlternativePerChar(part: string)
    requires PlainPrefix(Normalize(part))
    requires !ShortLabel(Normalize(part)) && |part| > 0
    ensures var alts := InterpretAll(GroupEntry(part));
      && alts.Some?
      && |alts.value| == |part|
      && forall k :: 0 <= k < |part| ==> alts.value[k] == LiteralPattern(Normalize(part))[k := Any]
  {
    AsWrittenIsIntended(part);
  }

  lemma BackslashSlashNormal()
    ensures Normalize(['\\', '/']) == ['\\', '/']
    ensures !ShortLabel(['\\', '/'])
  {
    var n := Normalize(['\\', '/']);
    assert n[0] == NormalizeChar('\\') && n[1] == NormalizeChar('/');
    assert n == ['\\', '/'];
    ShortLabelByFirstDot(n);
  }

  lemma BackslashSlashEscaped()
    ensures Escape(['\\', '/']) == ['\\', '\\', '\\', '/']
  {
    var n := ['\\', '/'];
    assert n[1..] == ['/'];
    assert Escape(n[1..]) == ['\\', '/'] + Escape([]);
  }

  lemma BackslashSlashVariants()
    ensures VariantsFrom(['\\', '\\', '\\', '/'], 0) ==
      [['.', '\\', '/'], ['\\', '.', '/'], ['\\', '\\', '.']]
  {
    var pc := ['\\', '\\', '\\', '/'];
    assert VariantsFrom(pc, 4) == [];
    assert VariantAt(pc, 3) == [];
    assert VariantsFrom(pc, 3) == [];
    assert pc[..2] == ['\\', '\\'] && pc[3..] == ['/'] && pc[4..] == [];
    assert pc[..1] == ['\\'] && pc[..0] == [] && pc[2..] == ['\\', '/'];
    assert VariantAt(pc, 2) == [pc[..2] + "." + pc[4..]];
    assert pc[..2] + "." + pc[4..] == ['\\', '\\', '.'];
    assert VariantAt(pc, 1) == [pc[..1] + "." + pc[3..]];
    assert pc[..1] + "." + pc[3..] == ['\\', '.', '/'];
    assert VariantAt(pc, 0) == [pc[..0] + "." + pc[2..]];
    assert pc[..0] + "." + pc[2..] == ['.', '\\', '/'];
    assert VariantsFrom(pc, 2) == VariantAt(pc, 2) + VariantsFrom(pc, 3);
    assert VariantsFrom(pc, 1) == VariantAt(pc, 1) + VariantsFrom(pc, 2);
    assert VariantsFrom(pc, 0) == VariantAt(pc, 0) + VariantsFrom(pc, 1);
  }

  lemma BackslashSlashStrings()
    ensures PartStrings(['\\', '/']) == [['.', '\\', '/'], ['\\', '.', '/'], ['\\', '\\', '.']]
  {
    BackslashSlashNormal();
    BackslashSlashEscaped();
    BackslashSlashVariants();
  }

  lemma EscapedDotSlash()
    ensures Interpret(['\\', '.', '/']) == Some([Lit('.'), Lit('/')])
  {
    var bad := ['\\', '.', '/'];
    assert bad[2..] == ['/'];
    assert ['/'][1..] == [];
    assert Interpret([]) == Some([]);
    assert !IsRegexMeta('/');
    assert Interpret(['/']) == OptPrepend([Lit('/')], Interpret([]));
    assert [Lit('/')] + [] == [Lit('/')];
    assert Interpret(['/']) == Some([Lit('/')]);
    assert Interpret(bad) == OptPrepend([Lit('.')], Interpret(['/']));
    assert [Lit('.')] + [Lit('/')] == [Lit('.'), Lit('/')];
  }

  /** The backslash bug: for the prefix `\/` the loop emits three alternatives for two
      characters; the extra one needs a literal `.` where the prefix has a backslash. */
  lemma BackslashBeforeSpecialExtraVariant()
    ensures var part := ['\\', '/'];
      && |Normalize(part)| == 2
      && PartStrings(part) == [['.', '\\', '/'], ['\\', '.', '/'], ['\\', '\\', '.']]
      && Interpret(PartStrings(part)[1]) == Some([Lit('.'), Lit('/')])
  {
    BackslashSlashStrings();
    EscapedDotSlash();
  }

  // ---------------------------------------------------------------------------
  // Matching.
  // ---------------------------------------------------------------------------

  predicate TokenMatches(t: Token, c: char) {
    match t
    case Any => !IsLineTerminator(c)
    case Lit(d) => c == d
  }

  /** The pattern matches the characters of `s` starting at position `at`. */
  predicate MatchesAt(p: Pattern, s: string, at: nat) {
    at + |p| <= |s| && forall j :: 0 <= j < |p| ==> TokenMatches(p[j], s[at + j])
  }

  /** The pattern occurs somewhere in `s`. */
  predicate Occurs(p: Pattern, s: string) {
    exists at: nat :: at <= |s| && MatchesAt(p, s, at)
  }

  /** `regex.test(s)` for the compiled expression: the leading run of slashes may match
      nothing and the trailing `(.*)` anything, so the test asks whether some alternative
      occurs in `s`. */
  predicate IsMedium(alts: seq<Pattern>, s: string) {
    exists q :: 0 <= q < |alts| && Occurs(alts[q], s)
  }

  /** The compiled expression of a medium list. */
  datatype Compiled =
    | InvalidRegex            // the empty list: `new RegExp` throws
    | OutsideFragment         // a prefix uses regular-expression syntax this model does not read
    | Matcher(alternatives: seq<Pattern>)

  function Compile(media: seq<string>): (r: Compiled)
    ensures r.InvalidRegex? <==> |media| == 0
  {
    if |media| == 0 then InvalidRegex
    else
      var o := InterpretAll(GroupAlternatives(media));
      if o.Some? then Matcher(o.value) else OutsideFragment
  }

  /** The alternatives of one prefix as the model reads them. */
  function PartMatcher(part: string): Option<seq<Pattern>> {
    InterpretAll(GroupEntry(part))
  }

  lemma {:induction false} InterpretAllAppend(a: seq<string>, b: seq<string>)
    ensures InterpretAll(a + b) ==
      (if InterpretAll(a).Some? && InterpretAll(b).Some?
       then Some(InterpretAll(a).value + InterpretAll(b).value) else None)
  {
    if |a| > 0 {
      assert (a + b)[1..] == a[1..] + b;
      InterpretAllAppend(a[1..], b);
      var ha := Interpret(a[0]);
      if ha.Some? && InterpretAll(a[1..]).Some? && InterpretAll(b).Some? {
        assert [ha.value] + (InterpretAll(a[1..]).value + InterpretAll(b).value)
          == [ha.value] + InterpretAll(a[1..]).value + InterpretAll(b).value;
      }
    } else {
      assert a + b == b;
      assert InterpretAll(a) == Some([]);
      if InterpretAll(b).Some? {
        assert [] + InterpretAll(b).value == InterpretAll(b).value;
      }
    }
  }

  lemma IsMediumAppend(a: seq<Pattern>, b: seq<Pattern>, s: string)
    ensures IsMedium(a + b, s) <==> IsMedium(a, s) || IsMedium(b, s)
  {
    if IsMedium(a + b, s) {
      var q :| 0 <= q < |a + b| && Occurs((a + b)[q], s);
      if q < |a| {
        assert (a + b)[q] == a[q];
      } else {
        assert (a + b)[q] == b[q - |a|];
      }
    }
    if IsMedium(a, s) {
      var q :| 0 <= q < |a| && Occurs(a[q], s);
      assert (a + b)[q] == a[q];
    }
    if IsMedium(b, s) {
      var q :| 0 <= q < |b| && Occurs(b[q], s);
      assert (a + b)[|a| + q] == b[q];
    }
  }

  /** Some prefix of the list matches the link on its own. */
  predicate SomePrefixMatches(media: seq<string>, s: string) {
    exists m :: m in media && PartMatcher(m).Some? && IsMedium(PartMatcher(m).value, s)
  }

  /** The compiled list is the union of its prefixes: it compiles iff every prefix does,
      and a link is medium iff it is medium for one of the prefixes. */
  lemma {:induction false} CompileIsUnion(media: seq<string>, s: string)
    requires |media| > 0
    ensures Compile(media).Matcher? <==> forall m :: m in media ==> PartMatcher(m).Some?
    ensures Compile(media).Matcher? ==>
      (IsMedium(Compile(media).alternatives, s) <==> SomePrefixMatches(media, s))
  {
    var head := PartMatcher(media[0]);
    var tail := media[1..];
    assert media == [media[0]] + tail;
    assert forall m :: m in media <==> m == media[0] || m in tail;
    InterpretAllAppend(GroupEntry(media[0]), GroupAlternatives(tail));
    if |tail| == 0 {
      assert GroupAlternatives(media) == GroupEntry(media[0]) + [];
      if head.Some? {
        assert head.value + [] == head.value;
      }
    } else {
      CompileIsUnion(tail, s);
      var rest := Compile(tail);
      if head.Some? && rest.Matcher? {
        IsMediumAppend(head.value, rest.alternatives, s);
      }
    }
  }

  // ---------------------------------------------------------------------------
  // What a prefix matches.
  // ---------------------------------------------------------------------------

  /** The window of `s` at `at` spells the normalised prefix except perhaps at position
      `k`, where it holds any character but a line terminator. */
  predicate AlmostAt(n: string, s: string, at: nat, k: nat) {
    && k < |n| && at + |n| <= |s|
    && !IsLineTerminator(s[at + k])
    && forall j :: 0 <= j < |n| && j != k ==> TokenMatches(TokenOf(n[j]), s[at + j])
  }

  /** The window of `s` at `at` spells the normalised prefix exactly. */
  predicate ExactAt(n: string, s: string, at: nat) {
    at + |n| <= |s| && forall j :: 0 <= j < |n| ==> TokenMatches(TokenOf(n[j]), s[at + j])
  }

  /** Outside the short-label case a prefix matches a link iff some window of the link
      spells the prefix with at most one character substituted. */
  lemma FuzzyMatchIff(part: string, s: string)
    requires !ShortLabel(Normalize(part)) && |part| > 0
    ensures IsMedium(IntendedAlternatives(part), s) <==>
      exists at: nat, k: nat :: AlmostAt(Normalize(part), s, at, k)
  {
    var n := Normalize(part);
    var alts := IntendedAlternatives(part);
    if IsMedium(alts, s) {
      var q :| 0 <= q < |alts| && Occurs(alts[q], s);
      var at: nat :| at <= |s| && MatchesAt(alts[q], s, at);
      assert alts[q] == Variant(n, q);
      assert TokenMatches(alts[q][q], s[at + q]);
      forall j | 0 <= j < |n| && j != q
        ensures TokenMatches(TokenOf(n[j]), s[at + j])
      {
        assert alts[q][j] == TokenOf(n[j]);
        assert TokenMatches(alts[q][j], s[at + j]);
      }
      assert AlmostAt(n, s, at, q);
    }
    if exists at: nat, k: nat :: AlmostAt(n, s, at, k) {
      var at: nat, k: nat :| AlmostAt(n, s, at, k);
      var p := Variant(n, k);
      assert alts[k] == p;
      assert MatchesAt(p, s, at);
    }
  }

  /** A short label matches a link iff the link contains the prefix exactly. */
  lemma ShortLabelExact(part: string, s: string)
    requires ShortLabel(Normalize(part))
    ensures IsMedium(IntendedAlternatives(part), s) <==> exists at: nat :: ExactAt(Normalize(part), s, at)
  {
    var n := Normalize(part);
    var alts := IntendedAlternatives(part);
    if IsMedium(alts, s) {
      var at: nat :| at <= |s| && MatchesAt(alts[0], s, at);
      assert ExactAt(n, s, at);
    }
    if exists at: nat :: ExactAt(n, s, at) {
      var at: nat :| ExactAt(n, s, at);
      assert MatchesAt(alts[0], s, at);
    }
  }

  /** A link containing the prefix itself is always medium: fuzzing only widens the match. */
  lemma ExactIsMedium(part: string, s: string, at: nat)
    requires ExactAt(Normalize(part), s, at)
    ensures IsMedium(IntendedAlternatives(part), s)
  {
    var n := Normalize(part);
    if ShortLabel(n) {
      ShortLabelExact(part, s);
    } else if |n| == 0 {
      assert MatchesAt([], s, 0);
      assert Occurs(IntendedAlternatives(part)[0], s);
    } else {
      assert !IsLineTerminator(s[at]) by {
        assert TokenMatches(TokenOf(n[0]), s[at]);
      }
      assert AlmostAt(n, s, at, 0);
      FuzzyMatchIff(part, s);
    }
  }

  lemma NormalizeKeeps(part: string)
    requires forall k :: 0 <= k < |part| ==> !IsSeparator(part[k])
    ensures Normalize(part) == part
  {
  }

  /** A window of `s` equal to the normalised prefix is an exact match. */
  lemma ExactAtSlice(n: string, s: string, at: nat)
    requires at + |n| <= |s| && s[at..at + |n|] == n
    requires forall k :: 0 <= k < |n| ==> !IsLineTerminator(n[k])
    ensures ExactAt(n, s, at)
  {
    forall j | 0 <= j < |n|
      ensures TokenMatches(TokenOf(n[j]), s[at + j])
    {
      assert s[at + j] == s[at..at + |n|][j] == n[j];
    }
  }

  /** Lower-case letters, digits, dots and slashes: the characters of a plain host prefix. */
  predicate PlainChar(c: char) {
    ('a' <= c <= 'z') || ('0' <= c <= '9') || c == '.' || c == '/'
  }

  /** A link that contains a plain prefix word for word is a medium link. */
  lemma VerbatimPrefixMatches(part: string, x: string, y: string)
    requires forall k :: 0 <= k < |part| ==> PlainChar(part[k])
    ensures IsMedium(IntendedAlternatives(part), x + part + y)
  {
    NormalizeKeeps(part);
    var s := x + part + y;
    assert s[|x|..|x| + |part|] == part;
    ExactAtSlice(part, s, |x|);
    ExactIsMedium(part, s, |x|);
  }

  /** A label of at most three characters, a dot, and a rest without dots. */
  lemma ShortLabelOf(a: string, b: string)
    requires |a| <= 3 && '.' !in a && '.' !in b
    ensures ShortLabel(a + "." + b)
  {
    var n := a + "." + b;
    assert n[|a|] == '.';
    assert forall j :: 0 <= j < |a| ==> n[j] == a[j];
    IndexOfIs(n, '.', |a|);
    assert n[|a| + 1..] == b;
    ShortLabelByFirstDot(n);
  }

  /** An exact window starts with the prefix's first character when that is not a dot. */
  lemma ExactAtHasFirst(n: string, s: string)
    requires |n| > 0 && n[0] != '.'
    ensures forall at: nat :: ExactAt(n, s, at) ==> n[0] in s
  {
    forall at: nat | ExactAt(n, s, at)
      ensures n[0] in s
    {
      assert TokenMatches(TokenOf(n[0]), s[at + 0]);
    }
  }

  /** A short label matches only links that contain its first character, when that
      character is not a dot: there is no fuzzy variant to fall back on. */
  lemma ShortLabelNeedsFirstChar(part: string, s: string)
    requires ShortLabel(Normalize(part))
    requires |Normalize(part)| > 0 && Normalize(part)[0] != '.' && Normalize(part)[0] !in s
    ensures !IsMedium(IntendedAlternatives(part), s)
  {
    ExactAtHasFirst(Normalize(part), s);
    ShortLabelExact(part, s);
  }

  /** A window spelling the prefix with its first character replaced is one substitution
      away from it. */
  lemma FirstReplacedIsAlmost(n: string, u: string, x: char, v: string)
    requires |n| > 0 && !IsLineTerminator(x)
    requires forall k :: 0 <= k < |n| ==> !IsLineTerminator(n[k])
    ensures AlmostAt(n, u + [x] + n[1..] + v, |u|, 0)
  {
    var s := u + [x] + n[1..] + v;
    assert s[|u|] == x;
    forall j | 0 <= j < |n| && j != 0
      ensures TokenMatches(TokenOf(n[j]), s[|u| + j])
    {
      assert s[|u| + j] == n[j];
    }
  }

  /** A plain prefix is its own normal form and holds no line terminator. */
  lemma PlainKept(n: string)
    requires forall k :: 0 <= k < |n| ==> PlainChar(n[k])
    ensures Normalize(n) == n
    ensures forall k :: 0 <= k < |n| ==> !IsLineTerminator(n[k])
  {
    NormalizeKeeps(n);
  }

  /** A short-label prefix such as `fb.com/` does not match a link that spells it with its
      first character replaced, as in `http://xb.com/user1`, although the window is one
      substitution away from the prefix: short labels get no fuzzy variants. */
  lemma ShortLabelRejectsNearMiss(a: string, b: string, u: string, x: char, v: string)
    requires 0 < |a| <= 3 && '.' !in a && '.' !in b
    requires forall k :: 0 <= k < |a + "." + b| ==> PlainChar((a + "." + b)[k])
    requires !IsLineTerminator(x)
    requires a[0] !in u + [x] + (a + "." + b)[1..] + v
    ensures ShortLabel(Normalize(a + "." + b))
    ensures !IsMedium(IntendedAlternatives(a + "." + b), u + [x] + (a + "." + b)[1..] + v)
    ensures AlmostAt(Normalize(a + "." + b), u + [x] + (a + "." + b)[1..] + v, |u|, 0)
  {
    var n := a + "." + b;
    PlainKept(n);
    ShortLabelOf(a, b);
    assert n[0] == a[0];
    ShortLabelNeedsFirstChar(n, u + [x] + n[1..] + v);
    FirstReplacedIsAlmost(n, u, x, v);
  }
}

=== FILE: strings.dfy ===
/** Character classes and string helpers with the meaning JavaScript gives them.
    Strings are sequences of Dafny characters; nothing here models UTF-16 code units. */
module JsStrings {

  datatype Option<T> = None | Some(value: T)

  /** The first present value from position `k` on: where a leftmost search stops. */
  function FirstSome<T>(xs: seq<Option<T>>, k: nat): (r: Option<T>)
    requires k <= |xs|
    ensures r.None? <==> forall j :: k <= j < |xs| ==> xs[j].None?
    ensures r.Some? ==> exists j :: k <= j < |xs| && xs[j] == r &&
                                    forall i :: k <= i < j ==> xs[i].None?
    decreases |xs| - k
  {
    if k == |xs| then None
    else if xs[k].Some? then xs[k]
    else FirstSome(xs, k + 1)
  }

  /** A line terminator: the characters a regular-expression `.` refuses to match. */
  predicate IsLineTerminator(c: char) {
    c == '\n' || c == '\r' || c == '\U{2028}' || c == '\U{2029}'
  }

  /** White space as `String.prototype.trim` and the regular-expression class `\s` see it. */
  predicate IsJsSpace(c: char) {
    || IsLineTerminator(c)
    || c == '\t' || c == '\U{000B}' || c == '\U{000C}' || c == ' '
    || c == '\U{00A0}' || c == '\U{1680}' || ('\U{2000}' <= c <= '\U{200A}')
    || c == '\U{202F}' || c == '\U{205F}' || c == '\U{3000}' || c == '\U{FEFF}'
  }

  predicate AllSpace(s: string) {
    forall k :: 0 <= k < |s| ==> IsJsSpace(s[k])
  }

  /** White space followed by white space is white space. */
  lemma AllSpaceConcat(a: string, b: string)
    requires AllSpace(a) && AllSpace(b)
    ensures AllSpace(a + b)
  {
    forall k | 0 <= k < |a + b|
      ensures IsJsSpace((a + b)[k])
    {
      if k < |a| {
        assert (a + b)[k] == a[k];
      } else {
        assert (a + b)[k] == b[k - |a|];
      }
    }
  }

  /** A leading space before a space-only slice of the rest. */
  lemma AllSpaceCons(s: string, k: nat)
    requires 0 < k <= |s| && IsJsSpace(s[0]) && AllSpace(s[1..][..k - 1])
    ensures AllSpace(s[..k])
  {
    assert s[..k] == [s[0]] + s[1..][..k - 1];
    AllSpaceConcat([s[0]], s[1..][..k - 1]);
  }

  function TrimStart(s: string): (r: string)
    ensures |r| <= |s| && r == s[|s| - |r|..]
    ensures AllSpace(s[..|s| - |r|])
    ensures |r| > 0 ==> !IsJsSpace(r[0])
  {
    if |s| > 0 && IsJsSpace(s[0]) then
      var r := TrimStart(s[1..]);
      var k := |s| - |r|;
      assert s[1..][k - 1..] == s[k..];
      AllSpaceCons(s, k);
      r
    else
      assert s[..0] == [];
      s
  }

  function TrimEnd(s: string): (r: string)
    ensures |r| <= |s| && r == s[..|r|]
    ensures AllSpace(s[|r|..])
    ensures |r| > 0 ==> !IsJsSpace(r[|r| - 1])
  {
    if |s| > 0 && IsJsSpace(s[|s| - 1]) then
      var r := TrimEnd(s[..|s| - 1]);
      assert s[..|s| - 1][..|r|] == s[..|r|];
      assert s[|r|..] == s[..|s| - 1][|r|..] + [s[|s| - 1]];
      AllSpaceConcat(s[..|s| - 1][|r|..], [s[|s| - 1]]);
      r
    else
      assert s[|s|..] == [];
      s
  }

  /** `String.prototype.trim`: the longest middle part without surrounding white space. */
  function Trim(s: string): (r: string)
    ensures exists a, b :: 0 <= a <= b <= |s| && r == s[a..b] && AllSpace(s[..a]) && AllSpace(s[b..])
    ensures |r| > 0 ==> !IsJsSpace(r[0]) && !IsJsSpace(r[|r| - 1])
  {
    var t := TrimStart(s);
    var r := TrimEnd(t);
    var a := |s| - |t|;
    assert r == s[a..a + |r|];
    assert s[a + |r|..] == t[|r|..];
    assert 0 <= a <= a + |r| <= |s| && r == s[a..a + |r|] &&
           AllSpace(s[..a]) && AllSpace(s[a + |r|..]);
    r
  }

  /** A string that neither starts nor ends with white space is its own trim. */
  lemma TrimUnchanged(w: string)
    requires |w| > 0 ==> !IsJsSpace(w[0]) && !IsJsSpace(w[|w| - 1])
    ensures Trim(w) == w
  {
    assert TrimStart(w) == w;
  }

  predicate StartsWith(s: string, p: string) {
    |p| <= |s| && s[..|p|] == p
  }

  /** `s.indexOf(c) > -1` for a single character. */
  predicate ContainsChar(s: string, c: char) {
    exists k :: 0 <= k < |s| && s[k] == c
  }

  /** Every element occurs at most once. */
  predicate NoDup<T(==)>(xs: seq<T>) {
    forall p, q :: 0 <= p < q < |xs| ==> xs[p] != xs[q]
  }

  /** Appending an element not yet present keeps the sequence free of duplicates. */
  lemma NoDupAppend<T>(xs: seq<T>, x: T)
    requires NoDup(xs) && x !in xs
    ensures NoDup(xs + [x])
  {
    forall p, q | 0 <= p < q < |xs + [x]|
      ensures (xs + [x])[p] != (xs + [x])[q]
    {
      if q == |xs| {
        assert (xs + [x])[p] == xs[p];
      }
    }
  }

  /** The entries of `xs` that `keep` accepts, in their order: what a loop pushing every
      accepted entry into a fresh array builds, and what `Array.prototype.filter` returns. */
  function Filter<T(==,!new)>(xs: seq<T>, keep: T -> bool): (r: seq<T>)
    ensures |r| <= |xs|
    ensures forall x :: x in r <==> x in xs && keep(x)
  {
    if |xs| == 0 then []
    else if keep(xs[0]) then [xs[0]] + Filter(xs[1..], keep)
    else Filter(xs[1..], keep)
  }

  /** Filtering a concatenation filters each half: the survivors keep their order. */
  lemma {:induction false} FilterAppend<T(!new)>(a: seq<T>, b: seq<T>, keep: T -> bool)
    ensures Filter(a + b, keep) == Filter(a, keep) + Filter(b, keep)
  {
    if |a| == 0 {
      assert a + b == b;
    } else {
      assert (a + b)[1..] == a[1..] + b;
      FilterAppend(a[1..], b, keep);
    }
  }

  /** Filtering a list without duplicates leaves none. */
  lemma {:induction false} FilterNoDup<T(!new)>(xs: seq<T>, keep: T -> bool)
    requires NoDup(xs)
    ensures NoDup(Filter(xs, keep))
  {
    if |xs| > 0 {
      FilterNoDup(xs[1..], keep);
      if keep(xs[0]) {
        var r := Filter(xs[1..], keep);
        assert xs[0] !in xs[1..] by {
          forall k | 0 <= k < |xs[1..]|
            ensures xs[1..][k] != xs[0]
          {
            assert xs[1..][k] == xs[k + 1];
          }
        }
        forall p, q | 0 <= p < q < |[xs[0]] + r|
          ensures ([xs[0]] + r)[p] != ([xs[0]] + r)[q]
        {
          if p == 0 {
            assert ([xs[0]] + r)[q] in r;
          } else {
            assert ([xs[0]] + r)[p] == r[p - 1];
          }
        }
      }
    }
  }

  /** `Array.prototype.indexOf`: the first position of `x`, or -1. */
  function IndexOf<T(==)>(xs: seq<T>, x: T): (r: int)
    ensures -1 <= r < |xs|
    ensures r == -1 <==> x !in xs
    ensures r >= 0 ==> xs[r] == x && x !in xs[..r]
  {
    if |xs| == 0 then -1
    else if xs[0] == x then 0
    else
      var r := IndexOf(xs[1..], x);
      if r == -1 then -1
      else
        assert xs[..r + 1] == [xs[0]] + xs[1..][..r];
        r + 1
  }

  /** `indexOf` finds the first occurrence. */
  lemma IndexOfIs<T>(xs: seq<T>, x: T, e: nat)
    requires e < |xs| && xs[e] == x
    requires forall j :: 0 <= j < e ==> xs[j] != x
    ensures IndexOf(xs, x) == e
  {
    assert xs[e] in xs;
    var r := IndexOf(xs, x);
    assert forall j :: 0 <= j < r ==> xs[j] != x by {
      forall j | 0 <= j < r
        ensures xs[j] != x
      {
        assert xs[..r][j] == xs[j];
      }
    }
  }

  /** The parts separated by `sep`, as `Array.prototype.join` writes them. */
  function Join(parts: seq<string>, sep: string): string {
    if |parts| == 0 then ""
    else if |parts| == 1 then parts[0]
    else parts[0] + sep + Join(parts[1..], sep)
  }

  /** Every part followed by `sep`: what a loop doing `acc += part + sep` builds. */
  function JoinTrailing(parts: seq<string>, sep: string): string {
    if |parts| == 0 then "" else parts[0] + sep + JoinTrailing(parts[1..], sep)
  }

  /** Dropping the final separator from the loop's output gives the join. */
  lemma {:induction false} JoinTrailingDropLast(parts: seq<string>, sep: string)
    requires |parts| > 0
    ensures JoinTrailing(parts, sep) == Join(parts, sep) + sep
  {
    if |parts| > 1 {
      JoinTrailingDropLast(parts[1..], sep);
    }
  }

  /** Joining a concatenation of non-empty groups equals joining the joins of each group. */
  lemma {:induction false} JoinConcat(a: seq<string>, b: seq<string>, sep: string)
    requires |a| > 0 && |b| > 0
    ensures Join(a + b, sep) == Join(a, sep) + sep + Join(b, sep)
  {
    if |a| == 1 {
      assert (a + b)[1..] == b;
    } else {
      assert (a + b)[1..] == a[1..] + b;
      JoinConcat(a[1..], b, sep);
    }
  }
}

=== FILE: urls.dfy ===
/** The URL helpers of index.js: `getProtocol`, `getDomain`, `getExtension`, and the way
    `checkURLs` rebuilds a path-only link against the page it was found on.

    Each helper is `url.match(regex)[...]`; when the expression does not match, `match`
    returns null and indexing it throws a TypeError. The model returns `None` there. */
module Urls {
  import opened JsStrings

  // ---------------------------------------------------------------------------
  // getProtocol: `url.match(/http:|https:/)[0]`.
  // ---------------------------------------------------------------------------

  /** The scheme token the alternation `http:|https:` matches at position `k`, if any. */
  function ProtocolAt(s: string, k: nat): Option<string>
    requires k <= |s|
  {
    if StartsWith(s[k..], "http:") then Some("http:")
    else if StartsWith(s[k..], "https:") then Some("https:")
    else None
  }

  function ProtocolFrom(s: string, k: nat): (r: Option<string>)
    requires k <= |s|
    ensures r.Some? <==> exists j :: k <= j <= |s| && ProtocolAt(s, j).Some?
    ensures r.Some? ==> exists j :: k <= j <= |s| && ProtocolAt(s, j) == r &&
                                    forall i :: k <= i < j ==> ProtocolAt(s, i).None?
    decreases |s| - k
  {
    if ProtocolAt(s, k).Some? then ProtocolAt(s, k)
    else if k == |s| then None
    else
      var r := ProtocolFrom(s, k + 1);
      assert r.Some? ==> exists j :: k <= j <= |s| && ProtocolAt(s, j) == r &&
                                     forall i :: k <= i < j ==> ProtocolAt(s, i).None? by {
        if r.Some? {
          var j :| k + 1 <= j <= |s| && ProtocolAt(s, j) == r &&
                   forall i :: k + 1 <= i < j ==> ProtocolAt(s, i).None?;
          assert forall i :: k <= i < j ==> ProtocolAt(s, i).None?;
        }
      }
      r
  }

  /** getProtocol: the scheme token at the leftmost position where one occurs. */
  function GetProtocol(s: string): (r: Option<string>)
    ensures r.Some? ==> r.value == "http:" || r.value == "https:"
    ensures r.None? <==> forall j :: 0 <= j <= |s| ==> ProtocolAt(s, j).None?
  {
    ProtocolFrom(s, 0)
  }

  // ---------------------------------------------------------------------------
  // getDomain and getExtension share the prefix `(?:http:|https:)\/\/(?:w{3}\.|)`.
  // ---------------------------------------------------------------------------

  /** Where the text after `http://` or `https://` begins, if the scheme starts at `k`. */
  function AuthorityAt(s: string, k: nat): (r: Option<nat>)
    requires k <= |s|
    ensures r.Some? ==> k + 7 <= r.value <= |s|
  {
    if StartsWith(s[k..], "http://") then Some(k + 7)
    else if StartsWith(s[k..], "https://") then Some(k + 8)
    else None
  }

  function AuthorityFrom(s: string, k: nat): (r: Option<nat>)
    requires k <= |s|
    ensures r.Some? ==> r.value <= |s|
    ensures r.Some? <==> exists j :: k <= j <= |s| && AuthorityAt(s, j).Some?
    decreases |s| - k
  {
    if AuthorityAt(s, k).Some? then AuthorityAt(s, k)
    else if k == |s| then None
    else AuthorityFrom(s, k + 1)
  }

  /** The text after the leftmost `http://` or `https://`, without one leading `www.`. */
  function AfterScheme(s: string): (r: Option<string>)
    ensures r.Some? <==> exists j :: 0 <= j <= |s| && AuthorityAt(s, j).Some?
  {
    var a := AuthorityFrom(s, 0);
    if a.None? then None
    else
      var rest := s[a.value..];
      if StartsWith(rest, "www.") then Some(rest[4..]) else Some(rest)
  }

  /** The longest prefix without `/`: what `[^\/]*` takes. */
  function UpToSlash(t: string): (r: string)
    ensures |r| <= |t| && r == t[..|r|] && '/' !in r
    ensures |r| < |t| ==> t[|r|] == '/'
  {
    if |t| == 0 || t[0] == '/' then ""
    else
      var r := UpToSlash(t[1..]);
      assert [t[0]] + r == t[..1 + |r|];
      [t[0]] + r
  }

  /** getDomain: the authority after the leftmost scheme, `www.` dropped, up to the first `/`. */
  function GetDomain(s: string): (r: Option<string>)
    ensures r.Some? ==> '/' !in r.value
    ensures r.Some? <==> exists j :: 0 <= j <= |s| && AuthorityAt(s, j).Some?
  {
    var a := AfterScheme(s);
    if a.None? then None else Some(UpToSlash(a.value))
  }

  /** The longest prefix without a line terminator: what `(.*)` takes. */
  function UpToLineEnd(t: string): (r: string)
    ensures |r| <= |t| && r == t[..|r|]
    ensures forall k :: 0 <= k < |r| ==> !IsLineTerminator(r[k])
    ensures |r| < |t| ==> IsLineTerminator(t[|r|])
  {
    if |t| == 0 || IsLineTerminator(t[0]) then ""
    else
      var r := UpToLineEnd(t[1..]);
      assert [t[0]] + r == t[..1 + |r|];
      [t[0]] + r
  }

  /** A text without line terminators is taken whole. */
  lemma NoLineEndTakesAll(t: string)
    requires forall k :: 0 <= k < |t| ==> !IsLineTerminator(t[k])
    ensures UpToLineEnd(t) == t
  {
  }

  /** getExtension: after the domain, `[^\.]*` skips to the first dot and `(.*)` takes the
      rest of that line. It throws exactly when getDomain does, since both need a
      `http(s)://`; what it returns is empty or starts with the dot, and stops at the end of
      the line. */
  function GetExtension(s: string): (r: Option<string>)
    ensures r.Some? <==> GetDomain(s).Some?
    ensures r.Some? ==> r.value == "" || r.value[0] == '.'
    ensures r.Some? ==> forall k :: 0 <= k < |r.value| ==> !IsLineTerminator(r.value[k])
  {
    var a := AfterScheme(s);
    if a.None? then None
    else
      var afterDomain := a.value[|UpToSlash(a.value)|..];
      var d := IndexOf(afterDomain, '.');
      if d == -1 then Some("") else Some(UpToLineEnd(afterDomain[d..]))
  }

  // ---------------------------------------------------------------------------
  // The page a link was found on, and path-only links resolved against it.
  // ---------------------------------------------------------------------------

  datatype PageBase = PageBase(protocol: string, domain: string)

  /** `new Page(url)`: computes the page's extension, domain and protocol, any of which
      may throw. */
  function PageBaseOf(url: string): (r: Option<PageBase>)
    ensures r.Some? <==> GetProtocol(url).Some? && GetDomain(url).Some?
    ensures r.Some? ==> r.value.protocol == GetProtocol(url).value && r.value.domain == GetDomain(url).value
  {
    if GetExtension(url).None? || GetDomain(url).None? || GetProtocol(url).None? then None
    else Some(PageBase(GetProtocol(url).value, GetDomain(url).value))
  }

  /** `protocol + "//" + domain + path`, with `/` put in front of a path lacking one. */
  function Resolve(base: PageBase, path: string): (r: string)
    ensures StartsWith(r, base.protocol + "//" + base.domain + "/")
    ensures |path| <= |r| && r[|r| - |path|..] == path
    ensures |r| == |base.protocol| + 2 + |base.domain| + |path| +
                   (if |path| > 0 && path[0] == '/' then 0 else 1)
  {
    var rooted := if |path| > 0 && path[0] == '/' then path else "/" + path;
    base.protocol + "//" + base.domain + rooted
  }

  /** The spelling of a scheme-relative URL's domain as `getDomain` reports it. */
  function StripWww(host: string): string {
    if StartsWith(host, "www.") then host[4..] else host
  }

  predicate IsWebProtocol(p: string) {
    p == "http:" || p == "https:"
  }

  /** `[^\/]*` stops at the first `/`. */
  lemma UpToSlashAt(t: string, i: nat)
    requires i <= |t| && (i == |t| || t[i] == '/')
    requires forall k :: 0 <= k < i ==> t[k] != '/'
    ensures UpToSlash(t) == t[..i]
  {
  }

  lemma UpToSlashOfHost(host: string, p: string)
    requires '/' !in host
    requires |p| == 0 || p[0] == '/'
    ensures UpToSlash(host + p) == host
  {
    var t := host + p;
    forall k | 0 <= k < |host|
      ensures t[k] != '/'
    {
      assert t[k] == host[k];
    }
    assert |host| < |t| ==> t[|host|] == p[0];
    UpToSlashAt(t, |host|);
    assert t[..|host|] == host;
  }

  /** A word without `/` starts `host + p` exactly when it starts `host`, when `p` is empty or
      begins with `/`. */
  lemma PrefixBeforeSlash(host: string, p: string, w: string)
    requires '/' !in w
    requires |p| == 0 || p[0] == '/'
    ensures StartsWith(host + p, w) <==> StartsWith(host, w)
  {
    if |host| >= |w| {
      assert (host + p)[..|w|] == host[..|w|];
    } else if |p| > 0 && |w| <= |host + p| {
      assert (host + p)[..|w|][|host|] == '/';
      assert w[|host|] in w;
    }
  }

  /** A text opening with `http://` or `https://` has its scheme and authority at 0. */
  lemma SchemeAtStart(s: string, proto: string)
    requires IsWebProtocol(proto) && StartsWith(s, proto + "//")
    ensures ProtocolAt(s, 0) == Some(proto)
    ensures AuthorityAt(s, 0) == Some(|proto| + 2)
  {
    assert s[0..] == s;
    assert s[..|proto|] == proto;
    if proto == "https:" {
      assert s[..5] != "http:" by {
        assert s[..5][4] == 's';
      }
      assert s[..7] != "http://" by {
        assert s[..7][4] == 's';
      }
    }
  }

  /** The authority `host + p` read up to its first `/`, one leading `www.` dropped. */
  lemma HostReadBack(host: string, p: string)
    requires '/' !in host
    requires |p| == 0 || p[0] == '/'
    ensures var rest := host + p;
      UpToSlash(if StartsWith(rest, "www.") then rest[4..] else rest) == StripWww(host)
  {
    var rest := host + p;
    PrefixBeforeSlash(host, p, "www.");
    if StartsWith(rest, "www.") {
      assert rest[4..] == host[4..] + p;
      assert forall c :: c in host[4..] ==> c in host;
      UpToSlashOfHost(host[4..], p);
    } else {
      UpToSlashOfHost(host, p);
    }
  }

  /** For `http(s)://host/path` the helpers read back the scheme and the host, `www.` dropped. */
  lemma ReadBack(proto: string, host: string, p: string)
    requires IsWebProtocol(proto)
    requires '/' !in host
    requires |p| == 0 || p[0] == '/'
    ensures GetProtocol(proto + "//" + host + p) == Some(proto)
    ensures GetDomain(proto + "//" + host + p) == Some(StripWww(host))
  {
    var s := proto + "//" + host + p;
    var scheme := proto + "//";
    assert s == scheme + (host + p);
    assert s[..|scheme|] == scheme;
    SchemeAtStart(s, proto);
    assert s[|scheme|..] == host + p;
    HostReadBack(host, p);
  }

  /** A resolved path-only link lies on the page's own domain and protocol, so reading it
      back gives the page's base again. */
  lemma ResolveRoundTrip(base: PageBase, path: string)
    requires IsWebProtocol(base.protocol)
    requires '/' !in base.domain && !StartsWith(base.domain, "www.")
    ensures PageBaseOf(Resolve(base, path)) == Some(base)
  {
    var rooted := if |path| > 0 && path[0] == '/' then path else "/" + path;
    ReadBack(base.protocol, base.domain, rooted);
  }

  /** `/x` and `x` both resolve to `http://a.com/x` on the page `http://a.com`. */
  lemma ResolveExamples()
    ensures Resolve(PageBase("http:", "a.com"), "/x") == "http://a.com/x"
    ensures Resolve(PageBase("http:", "a.com"), "x") == "http://a.com/x"
  {
  }
}
